=== FILE: README.md ===
# PHP templater core in Dafny

This project models the core of a small PHP templating engine. Its source is
`Template.php` and `TemplateParser.php`. A `Template` holds a tree of
variables, the raw template text, and the parsed and compiled results. A
`TemplateParser` turns the template markup into PHP:

- output tokens `{NAME}`, `{NS:NAME}` and `{C:CONST}`;
- conditions `{IF: ...}`;
- loops `{LOOP: name}`;
- literal regions `{IGNORE}...{/IGNORE}`.

It then runs that PHP against the variables. A cached translation on disk is
used while it is fresh.

The modules follow the program:

- `Strings`: the PHP string primitives the code relies on, each with its
  defining property (`explode`, `implode`, `strtolower`, `str_replace`,
  substring search, decimal printing).
- `Values`: a PHP array as an ordered list of key/value entries. A key is
  a string `S` or an integer `I`; a value is a scalar or a nested array.
  It covers `$a[$k]`, `$a[$k] = $v` and `$a[] = $v`.
- `Variables`: `set`, `_assign_var`, `_assign_nested_vars` and `set_loop`.
  Each is a pure function from the old variable tree to the new one.
- `TemplateState`: the `Template` record with its setters and getters.
- `Compilers`: the per-token translators of `TemplateParser`:
  - `operator`, `parse_namespace` and `parse_output_block`;
  - the output replacement choice;
  - `parse_condition_block`;
  - loop naming and row flags.
- `IgnoreBlocks`: finding ignore regions, stashing them behind placeholders,
  and restoring them. It holds both the code as written and a corrected
  positional stash (see Findings).
- `IgnoreAsWritten`: the proof that the stash as written round-trips on
  every template whose regions hold no opening tag of their own.
- `Pipeline`: the cache freshness rule and the `parse`/`compile` state
  machine.

The model follows the code in every quirk it keeps:

- Both descent loops stop at the first segment equal to the last one.
- The overwrite guard looks up the whole colon name as one top-level key.
- In conditions, the output-reference test runs before the operator test.
- `IS_ODD_ROW` holds on even indices.
- A dot at position 0 of a loop name counts as no dot, because `strpos`
  returns 0.
- A cached parse of `""` or `"0"` is read as false, so the template is
  parsed again.
- Ignore regions are swapped out with a whole-template `str_replace`, as the
  code does, so `Pipeline.Parse` inherits the misplacement listed under
  Findings.

Two places use a corrected rule instead, each listed under Findings: the
cache freshness test of `Pipeline.Cache`, and the positional stash that the
ignore round trip is also proved for.

Outside effects are parameters:

- `Pipeline.Env` carries what `file_exists`, `filemtime`,
  `file_get_contents` and `time()` report.
- `middle` stands for the whole-text regular-expression stages of `parse`
  (includes, output tokens, loops, conditions, else/endif).
- `run` stands for `eval` with output buffering.

## Model

| member | source | states |
|---|---|---|
| Values.Lookup | Template.php:129 | reading `$a[$k]` yields nothing exactly when the key is absent, and otherwise a value stored under that key |
| Values.Put | Template.php:209 | `$a[$k] = $v` makes `$k` read `$v` and leaves every other key reading as before. The key set gains only `$k`. An existing key keeps its place and a new key goes to the end, so keys stay distinct |
| Values.Append | Template.php:131 | `$a[] = $v` keeps the earlier entries and adds `$v` at the end under a fresh non-negative integer key, one past the largest integer key (or 0) |
| Values.NextIndex | Template.php:131 | the key `[]` picks is larger than every integer key present, so it is unused, and it is 0 or one past a key that is present |
| Values.AppendKeepsList | Template.php:131 | appending to a list keyed 0, 1, ..., n-1 uses key n, so a list built only by `$a[] = $v` from `array()` stays keyed by position |
| Strings.Split | TemplateParser.php:361 | `explode` gives at least one piece, no piece holds the separator, and `implode` of the pieces gives the text back |
| Strings.LastSegment | Template.php:112 | the last piece of `explode` is the text after the last separator: a separator-free suffix, preceded by the separator unless it is the whole text |
| Strings.ReplaceSkip | TemplateParser.php:203 | `str_replace` leaves a prefix alone when no occurrence of the search string starts inside it |
| Strings.ReplaceAbsent | TemplateParser.php:203 | `str_replace` of a string that does not occur changes nothing |
| Variables.AssignNested | Template.php:163-196 | a nested assignment touches only the top-level key of its first segment: every other key reads as before, and the key set grows by at most that key |
| Variables.TargetPath | Template.php:169-174 | the path actually walked is a prefix of the segments. It ends at the first segment equal to the last one, and no earlier segment equals it |
| Variables.NestedSetsTarget | Template.php:163-196 | after a nested assignment, the value is found at the end of the walked path, unless a scalar intermediate stopped the walk with overwriting off |
| Variables.FreshNestHoldsOnlyPath | Template.php:177-180 | a missing intermediate is created as an array holding only the rest of the path |
| Variables.ScalarIntermediateDrops | Template.php:182-194 | a scalar first intermediate drops the assignment when overwriting is off, and is replaced by a fresh namespace when it is on |
| Variables.ScalarOnPathDrops | Template.php:182-194 | with overwriting off, a scalar met at any depth of the walk drops the assignment and leaves the whole tree as it was |
| Variables.NestedKeepsSiblings | Template.php:163-196 | at every level of the walk, a sibling key reads the same before and after the nested assignment |
| Variables.NestedWellFormed | Template.php:163-196 | a nested assignment keeps every array's keys distinct |
| Variables.AssignVar | Template.php:199-212 | with overwriting off, an existing top-level name is left alone. Otherwise a plain name is assigned and nothing else changes |
| Variables.SetNestedReachesTarget | Template.php:199-206 | `set` of a colon name reaches the nested target whenever the walk is not stopped by a scalar |
| Variables.NestedGuardOnlyProtectsPlainKeys | Template.php:199-204 | with overwriting off, `set('A:B', v)` still replaces an existing nested `A => [B => ...]`, because the guard only sees the literal key `A:B` |
| Variables.Set | Template.php:86-99 | `set` never removes a variable. With overwriting off, an existing plain name is left alone; otherwise a plain name is assigned and no other key changes |
| Variables.SetBatchSplits | Template.php:92-98 | setting an array of pairs is the same as setting its first part and then the rest, in iteration order |
| Variables.SetSinglePair | Template.php:88-98 | a one-pair array given to `set` acts as the string form of `set` with that pair |
| Variables.SetWellFormed | Template.php:86-99 | `set` keeps the variable tree's arrays free of duplicate keys |
| Variables.LoopAt | Template.php:109-136 | a `set_loop` walk touches only the top-level key of the name's first segment: every other key reads as before, and the key set grows by at most that key |
| Variables.SetLoop | Template.php:104-107 | a non-string name or a non-array record leaves the variables unchanged |
| Variables.SetLoopSingleSegment | Template.php:129-136 | a dot-free loop name appends the record after the list's earlier records, or replaces a non-array with a one-record list. No other key changes |
| Variables.SetLoopMissingAncestor | Template.php:114-125 | a dotted name whose first ancestor is missing or not an array changes nothing |
| Variables.SetLoopMissingDeeperAncestor | Template.php:114-126 | under `a.b.c`, when the `a` list's last record has no `b`, nothing changes: the walk binds that record, finds no array under `b` and returns |
| Variables.SetLoopIntoEmptyParent | Template.php:114-136 | under `p.c` with `p` an empty list, the walk makes `p`'s record slot under key `count - 1 = -1`, and the `c` list it starts there holds the record under key 0 |
| Variables.SetLoopDescendsIntoLastRecord | Template.php:114-136 | under `parent.child`, the last record of the `parent` list becomes what `set_loop` of the dot-free `child` makes of it. That list's other records and every other top-level key are untouched |
| Variables.LoopAtWellFormed | Template.php:102-137 | `set_loop` keeps every array's keys distinct |
| TemplateState.NewTemplate | Template.php:29-37 | a new template has no variables, overwriting on, and is neither parsed nor compiled |
| TemplateState.SetContent | Template.php:140-148 | setting the content changes only the raw source |
| TemplateState.SetParsed | Template.php:230-244 | `set_parsed` raises the parsed flag, `get_parsed` returns exactly the given content, and nothing else changes |
| TemplateState.SetCompiled | Template.php:214-228 | `set_compiled` raises the compiled flag, `get_compiled` returns exactly the given content, and nothing else changes |
| TemplateState.Set | Template.php:86-99 | `set` on a template changes only its variables, as the variable store's `set` does |
| TemplateState.SetLoop | Template.php:102-137 | `set_loop` on a template changes only its variables, as the variable store's `set_loop` does |
| Compilers.Operator | TemplateParser.php:500-515 | each of the nine aliases maps to its symbol, and every other string is returned unchanged |
| Compilers.OperatorIdempotent | TemplateParser.php:500-515 | no symbol is itself an alias, so applying `operator` twice equals applying it once |
| Compilers.AliasesHaveOperator | TemplateParser.php:29 | every alias matches the operator pattern, so the fallback branch reaches `operator` for each |
| Compilers.ParseNamespace | TemplateParser.php:359-370 | the access path is the top level followed by `['seg']` for each colon-separated segment, in order |
| Compilers.UnbracketBrackets | TemplateParser.php:365-368 | a bracket chain built from quote-free segments decodes back to those segments |
| Compilers.NamespacePathInjective | TemplateParser.php:359-370 | distinct quote-free references produce distinct access paths |
| Compilers.ParseOutputBlock | TemplateParser.php:373-390 | after one leading `{` and one final `}` are stripped: a `C:` reference gives the text after `C:`, and every other reference gives its namespace path (one bracket when colon-free) |
| Compilers.NoColonPath | TemplateParser.php:385-388 | a colon-free reference is one bracket under the top level and is never a constant reference |
| Compilers.CompileOutput | TemplateParser.php:241-250 | an output token becomes a `defined`-guarded echo exactly when its alias is a constant name, and an `isset`-guarded echo exactly when it is not |
| Compilers.VariableTokenIsGuarded | TemplateParser.php:241-250 | a variable token always becomes an `isset`-guarded echo of its access path, so an unset variable prints nothing |
| Compilers.ConstantTokenIsDefinedGuarded | TemplateParser.php:241-246 | `{C:NAME}` with an upper-case name becomes a `defined`-guarded echo of the constant |
| Compilers.LowerCaseConstantTokenIsGuarded | TemplateParser.php:241-250 | `{C:name}` whose name is not upper-case falls back to an `isset`-guarded echo of the bare name |
| Compilers.SplitWellFormedHeader | TemplateParser.php:311-313 | a well-formed `TYPE: expr` splits back into exactly its type and expression |
| Compilers.BracketSplit | TemplateParser.php:318-331 | a part is cut into an optional leading `(`, a word and an optional trailing `)`, and the three pieces concatenate back to the part |
| Compilers.RewritePartKeepsBrackets | TemplateParser.php:318-348 | each bracket cut from a part becomes a token of its own, in place around the rewritten word |
| Compilers.RewriteBracketed | TemplateParser.php:319-331 | a bracketed part becomes `(`, its rewritten word and `)`, in that order |
| Compilers.RewriteWordIsOperatorFallback | TemplateParser.php:335-346 | a word that is no output reference is rewritten exactly as `operator` would; the operator pattern test adds nothing |
| Compilers.AliasPrecedence | TemplateParser.php:335-342 | the two-letter aliases become symbols, while the three-letter ones (`and`, `not`, `neq`, `gte`, `lte`) become variable paths |
| Compilers.LongWordIsRef | TemplateParser.php:335-338 | a word of three or more word characters becomes the variable path `$vars['word']` |
| Compilers.ShortWordIsNotRef | TemplateParser.php:335-336 | a colon-free word of fewer than three characters is never an output reference |
| Compilers.LiteralsPassThrough | TemplateParser.php:343-346 | parts that are not bracketed, not references and not aliases pass through verbatim |
| Compilers.LiteralConditionBody | TemplateParser.php:315-354 | a condition of literals only is reassembled into the same text |
| Compilers.ParseConditionBlock | TemplateParser.php:354 | every condition, well-formed or not, compiles to text that opens with `<? ` and closes with `): ?>` |
| Compilers.ConditionShape | TemplateParser.php:309-355 | a well-formed condition compiles to `<? type (tokens): ?>`, with the type in lower case and the rewritten parts joined by spaces |
| Compilers.UnmatchedCondition | TemplateParser.php:309-355 | a condition the header pattern does not match compiles to `<? text (): ?>`: its whole text in lower case as the type, and an empty expression |
| Compilers.LoopAlias | TemplateParser.php:398 | the loop alias is `$` followed by the name with each dot turned into an underscore, and holds no dot |
| Compilers.LoopStorageKey | TemplateParser.php:400-408 | a name with a dot, but not at position 0, is stored under the text after its last dot; every other name is stored under itself |
| Compilers.NestedLoopKey | TemplateParser.php:400-404 | the list of `parent.child` is looked up under `child` alone |
| Compilers.NestedLoopAlias | TemplateParser.php:398 | the alias of `parent.child` is the parent's alias, an underscore, and the child |
| Compilers.WordLoopNameIsKey | TemplateParser.php:396-408 | every name the loop pattern accepts is its own storage key and gives the alias `$name` |
| Compilers.LeadingDotKeepsWholeName | TemplateParser.php:400-408 | a name with a dot at position 0 is looked up whole, because `strpos` returns 0, which PHP reads as false |
| Compilers.Flags | TemplateParser.php:414-417 | for record `i` of `n`: first exactly when `i = 0`, last exactly when `i = n - 1`, odd exactly when `i` is even, and even exactly when not odd |
| Compilers.LoopFlags | TemplateParser.php:411-417 | in a loop, exactly the first record is first and exactly the last is last. The odd flag alternates from record to record, and a single record is both first and last |
| IgnoreBlocks.Scan | TemplateParser.php:186-187 | splitting the template into plain text and ignore regions loses nothing: the pieces put back together are the template |
| IgnoreBlocks.ScanShape | TemplateParser.php:186-187 | the lazy pattern matches leftmost and shortest: text and regions alternate, text before a region holds no opening tag, no region holds a closing tag, and the trailing text holds no complete region |
| IgnoreBlocks.PlaceholderNotInOther | TemplateParser.php:192-194 | no placeholder occurs inside a differently numbered one with the same time stamp |
| IgnoreBlocks.StashAsWritten | TemplateParser.php:190-201 | the store holds, in region order, each region's inner text under placeholder `i`, `i + 1`, ... |
| IgnoreBlocks.RestoreFillsAll | TemplateParser.php:291-295 | restoring the whole store over stashed text puts each stored text in the place of its own placeholder and changes nothing else |
| IgnoreBlocks.IgnoreRoundTrip | TemplateParser.php:184-295 | for the positional stash, with nothing in between, stash then restore gives the template with each region's tags removed and its text kept verbatim |
| IgnoreBlocks.AsWrittenMisplacesNestedRegion | TemplateParser.php:194-204 | with the whole-template `str_replace` as written, a template with a repeated region inside a later region does not come back with the regions in place |
| IgnoreBlocks.PositionalKeepsNestedRegion | TemplateParser.php:184-205 | for that same template, the positional stash meets the round trip's premise and its intended result keeps the regions in place |
| IgnoreAsWritten.ReplaceMarks | TemplateParser.php:203 | one whole-template `str_replace` of a region's text turns exactly the pending regions with that inner text into its placeholder, when no pending region holds a tag |
| IgnoreAsWritten.StashFold | TemplateParser.php:190-204 | the stash loop as written is that replacement applied region by region, with each region's text stored under its own placeholder |
| IgnoreAsWritten.AsWrittenRoundTrip | TemplateParser.php:184-295 | for a template without `@` whose regions hold no opening tag, the stash as written followed by the restore gives the template with each region unwrapped |
| Pipeline.Fresh | TemplateParser.php:128-140 | a cache entry is fresh exactly when it was written no earlier than the template's last change, or is younger than the maximum age |
| Pipeline.FreshWhenNewer | TemplateParser.php:136-140 | a cache entry written no earlier than the template's last change is always served |
| Pipeline.StaleExpires | TemplateParser.php:128-135 | an entry older than the template is served exactly while it is younger than the maximum age, and never when the maximum age is zero or less |
| Pipeline.FreshMonotone | TemplateParser.php:128-140 | freshness only goes from served to not served as time passes, and a larger maximum age serves at least as much |
| Pipeline.CacheReadAsWritten | TemplateParser.php:120-141 | as written, an unparsed template is served the stored entry exactly when the entry exists and is no older than the template; an older entry stops the call at `$this` |
| Pipeline.StaleReadIsFatal | TemplateParser.php:128-135 | an entry older than the template but younger than the maximum age is fresh by the intended rule, yet reading it as written fails |
| Pipeline.AsWrittenAgreesOtherwise | TemplateParser.php:120-141 | on every other cache state the code as written and the intended rule serve the same entry |
| Pipeline.Cache | TemplateParser.php:111-144 | a parsed template is written out and nothing is returned. An unparsed one is served the stored entry exactly when the entry exists and is fresh |
| Pipeline.Parse | TemplateParser.php:150-303 | afterwards the template is parsed and nothing but its parse changed. A parsed template is left alone; a served entry PHP reads as true becomes the parse with nothing written; whatever is written is the new parse |
| Pipeline.ParseIdempotent | TemplateParser.php:157-160 | parsing a parsed template changes nothing and writes nothing, whatever the environment |
| Pipeline.ParseRestoresIgnoreRegions | TemplateParser.php:163-303 | with no served cache entry and no-op middle stages, a template without `@` whose regions hold no opening tag is parsed to itself with its ignore tags removed and region text kept, and that parse is written to the cache |
| Pipeline.TranslateAgreesWithPositional | TemplateParser.php:184-295 | on those templates the stash as written and the positional stash give the same result |
| Pipeline.ParseMisplacesNestedRegion | TemplateParser.php:184-205 | with middle stages that change nothing, `parse` turns `{IGNORE}x{/IGNORE}{IGNORE}a{IGNORE}x{/IGNORE}` into `x{IGNORE}ax`, not the unwrapped `xa{IGNORE}x` |
| Pipeline.FalsyCacheEntryIsReparsed | TemplateParser.php:163-169 | a served cache entry of `""` or `"0"` is ignored: the template is translated again and the result written |
| Pipeline.Compile | TemplateParser.php:44-73 | a compiled template returns its stored output. Otherwise the parse is run against the variables, and the output is stored and returned. An already parsed template is not parsed again |
| Pipeline.CompileIdempotent | TemplateParser.php:51-54 | compiling a compiled template returns the same output and changes nothing, whatever the second call is given |
| Pipeline.CompileParsesFirst | TemplateParser.php:56-59 | compiling an unparsed template parses it exactly as `parse` would, including the cache write |

## Left out

- `eval` with output buffering in `compile` (TemplateParser.php:65-67): its meaning is the PHP interpreter's, so `Pipeline.Compile` takes it as the parameter `run`.
- File-system and clock I/O (TemplateParser.php:97-142, 192): creating the cache directory, `file_put_contents`, `file_exists`, `filemtime`, `file_get_contents` and `time()` are values in `Pipeline.Env`. A write that fails is not modelled.
- `cache` is declared static yet reads `$this->max_cache_age` (TemplateParser.php:131). `Pipeline.CacheReadAsWritten` models the failure that causes (see Findings). `Pipeline.Cache`, and so `Pipeline.Parse`, use the intended rule, with the maximum age as a field of `Env`.
- The include stage (TemplateParser.php:212-228, 485-498), which reads files and does not terminate on self-including templates, is not modelled on its own: it is abstracted into the parameter `middle`, which `Pipeline.Translate` applies where that stage runs.
- The whole-text regular-expression passes of `parse` are the parameter `middle` of `Pipeline.Parse`. These are includes (TemplateParser.php:212-228), output tokens, loops, conditions and else/endif (TemplateParser.php:232-288), plus the loop-body variable rewriting (TemplateParser.php:421-479). Their per-token translators are modelled in `Compilers`.
- The loop pattern admits only word characters in a name (TemplateParser.php:24), so the dotted branch of loop naming is unreachable from `parse`. `Compilers.WordLoopNameIsKey` states this.
- Error reporting through `error` and `trigger_error`, and the `instanceof` checks that lead to it (TemplateParser.php:46-49, 76-87, 92-95, 152-155), are not modelled. The model is typed, so those paths cannot arise.
- `Template::load`, the constructor's template directory handling, the static `$template_store` and `filename` (Template.php:45-80, 246-251) are not modelled. Nor is `index.php`, a demonstration script.
- PHP `null` is not modelled. Where `set_loop` descends into a missing last record through a reference (Template.php:126), PHP creates `null` there and the model an empty array. `is_array` and `isset` tell the two apart, but every later `set` and `set_loop` walk treats them alike: no entry is found there, and a needed one is created.
- Scalars are strings only. Integer and boolean values are not distinguished, and numeric string keys are not converted to integer keys as PHP would.
- `isset` is false for a key holding `null`, so with null left out the overwrite guard (Template.php:201) is modelled as "the key is present".
- Values.NextIndex: uses the rule of PHP before 8.3, where `[]` on an array with only negative integer keys uses key 0.
- IgnoreBlocks.IgnoreRoundTrip: assumes the template contains no `@`. The source needs only that no text mimics a placeholder `{@IGNORE_BLOCK_<time>_<n>@}`; excluding `@` is a simpler, stronger premise.
- IgnoreAsWritten.AsWrittenRoundTrip: assumes no `@`, as above, and that no region holds an opening tag of its own. Without the second premise the round trip can fail (see Findings).
- Pipeline.ParseMisplacesNestedRegion: stated for middle stages that change nothing. The output stage of `parse` (TemplateParser.php:234-249) then compiles the exposed `{IGNORE}` as a variable token, so the program yields `x<? echo isset($vars['IGNORE']) ? $vars['IGNORE'] : '' ?>ax`; either way the region text is not restored.
- Pipeline.ParseRestoresIgnoreRegions: stated for middle stages that change nothing, and under the two premises of `IgnoreAsWritten.AsWrittenRoundTrip`. For other stages, the result depends on those stages leaving the placeholders alone.
- Variables.SetLoopMissingAncestor: covers a missing or non-array first ancestor only. A missing deeper ancestor changes nothing either when the list above it has a record under the key `count - 1` (Template.php:126 binds that record, then line 121 returns; `Variables.SetLoopMissingDeeperAncestor`). Only when that list is empty, or lacks that key, does the walk first create the slot (null in PHP, an empty array here), then stop.
- Variables.LoopAt: when the last record of an ancestor list is a scalar, the model leaves the variables unchanged. PHP goes on into that string (Template.php:121-131): a further ancestor reads as not an array and the call returns, as modelled, but a final `$level[$last] = array($values)` writes into a string, which PHP rejects with a warning or an Error depending on its version.
- Compilers.LoopFlags: assumes the loop list is keyed 0, 1, ..., n-1 in order, because the flags read the `foreach` key. `Values.AppendKeepsList` shows that lists built only by appending are. When `set_loop` descends into an empty parent list, that parent list gains its record under key -1 (Template.php:126 with a count of 0; `Variables.SetLoopIntoEmptyParent`). PHP's truncating `%` gives -1 % 2 = -1, so that record's `IS_FIRST_ROW`, `IS_ODD_ROW` and `IS_LAST_ROW` are all false.
- Compilers.ConditionShape: requires an expression without newlines and without the internal separator ` ^v^ `. For other expressions the model follows the code (`HeaderRewrite`, `SplitHeader`), but no closed form is stated.

## Findings

| source | as written | input that shows it | evidently intended | confidence | as-written member | corrected member |
|---|---|---|---|---|---|---|
| TemplateParser.php:194-204 | each ignore region is swapped out with `str_replace` of its whole text over the whole template. An identical text inside a later region is therefore rewritten too, and the later region's stored text still holds the original. | `{IGNORE}x{/IGNORE}{IGNORE}a{IGNORE}x{/IGNORE}` (any two distinct characters `x`, `a` other than `{` and `@`) restores to `x{IGNORE}ax` | each region comes back where it was, giving `xa{IGNORE}x` | not executed | IgnoreBlocks.AsWrittenMisplacesNestedRegion | IgnoreBlocks.IgnoreRoundTrip |
| TemplateParser.php:131 | `cache` is a static method, yet its stale branch reads `$this->max_cache_age`, so PHP stops with its error for `$this` outside an object | a cache file older than the template's last change, read while younger than the maximum age | the entry is served while younger than the parser's maximum age | not executed | Pipeline.StaleReadIsFatal | Pipeline.StaleExpires |

The corrected stash (`IgnoreBlocks.StashText` and `IgnoreBlocks.StashStore`)
replaces each region at its own position. `Pipeline.Parse` keeps the stash
as written; `IgnoreAsWritten.AsWrittenRoundTrip` and
`Pipeline.TranslateAgreesWithPositional` show that the two agree on every
template without `@` whose regions hold no opening tag of their own.

The corrected freshness rule (`Pipeline.Fresh`) is the one `Pipeline.Cache`
and `Pipeline.Parse` use.

=== FILE: Compilers.dfy ===
/**
 The per-token compilers of TemplateParser.php. Each turns one piece of
 template markup into a piece of PHP source text: an operator alias into its
 symbol, a variable reference into an array access path, an output token into
 a guarded echo, a condition into an `if`/`elseif` header, a loop name into
 its storage key and alias; and the row-position flags every loop iteration
 receives.
 */
module Compilers {
  import opened Values
  import opened Strings

  // ---------------------------------------------------------------------
  // Character classes and the two anchored patterns
  // ---------------------------------------------------------------------

  /** `[0-9a-zA-Z_]` */
  predicate WordChar(ch: char)
  {
    '0' <= ch <= '9' || 'a' <= ch <= 'z' || 'A' <= ch <= 'Z' || ch == '_'
  }

  predicate AllWord(s: string)
  {
    forall i :: 0 <= i < |s| ==> WordChar(s[i])
  }

  /** `[A-Z0-9_]` */
  predicate ConstChar(ch: char)
  {
    '0' <= ch <= '9' || 'A' <= ch <= 'Z' || ch == '_'
  }

  /** `[0-9a-zA-Z_]{3,}(:[0-9a-zA-Z_]+)*` matching all of `s`. */
  predicate OutputRefBody(s: string)
  {
    var segs := Split(s, ':');
    |segs[0]| >= 3
    && (forall i :: 0 <= i < |segs| ==> AllWord(segs[i]))
    && (forall i :: 1 <= i < |segs| ==> |segs[i]| >= 1)
  }

  /** The `output_block` test. PCRE's `$` also matches before one final
      newline, so a trailing "\n" is allowed after the pattern. */
  predicate IsOutputRef(s: string)
  {
    OutputRefBody(s) || (|s| > 0 && s[|s| - 1] == '\n' && OutputRefBody(s[..|s| - 1]))
  }

  predicate ConstantBody(s: string)
  {
    |s| >= 1 && forall i :: 0 <= i < |s| ==> ConstChar(s[i])
  }

  /** The constant test `^[A-Z0-9_]+$` of the output replacement. */
  predicate IsConstantName(s: string)
  {
    ConstantBody(s) || (|s| > 0 && s[|s| - 1] == '\n' && ConstantBody(s[..|s| - 1]))
  }

  // ---------------------------------------------------------------------
  // operator
  // ---------------------------------------------------------------------

  /** The nine textual operator aliases. */
  const OperatorAliases: map<string, string> := map[
    "not" := "!", "and" := "&&", "or" := "||", "eq" := "==", "neq" := "!=",
    "gt" := ">", "lt" := "<", "lte" := "<=", "gte" := ">="]

  /** `operator($alias)`: the symbol of an alias, anything else unchanged. */
  function Operator(a: string): (r: string)
    ensures a in OperatorAliases ==> r == OperatorAliases[a]
    ensures a !in OperatorAliases ==> r == a
  {
    if a == "not" then "!"
    else if a == "and" then "&&"
    else if a == "or" then "||"
    else if a == "eq" then "=="
    else if a == "neq" then "!="
    else if a == "gt" then ">"
    else if a == "lt" then "<"
    else if a == "lte" then "<="
    else if a == "gte" then ">="
    else a
  }

  /** No symbol is itself an alias, so mapping twice is mapping once. */
  lemma OperatorIdempotent(a: string)
    ensures Operator(Operator(a)) == Operator(a)
  {
    if a in OperatorAliases {
      assert OperatorAliases.Values !! OperatorAliases.Keys;
    }
  }

  /** The unanchored `operator` regex: one of `[!=<>]`, `&&`, `||`, or one of
      the alias words anywhere in the string (`neq`, `gte` and `lte` contain
      `eq`, `gt` and `lt`). */
  predicate HasOperator(s: string)
  {
    (exists i :: 0 <= i < |s| && s[i] in "!=<>")
    || Contains(s, "&&") || Contains(s, "||")
    || Contains(s, "eq") || Contains(s, "and") || Contains(s, "not")
    || Contains(s, "or") || Contains(s, "gt") || Contains(s, "lt")
  }

  /** Every alias matches the operator regex. */
  lemma AliasesHaveOperator(a: string)
    requires a in OperatorAliases
    ensures HasOperator(a)
  {
    if a == "neq" { assert OccursAt(a, "eq", 1); }
    else if a == "lte" { assert OccursAt(a, "lt", 0); }
    else if a == "gte" { assert OccursAt(a, "gt", 0); }
    else { assert OccursAt(a, a, 0); }
  }

  // ---------------------------------------------------------------------
  // parse_namespace
  // ---------------------------------------------------------------------

  /** `['s0']['s1']...` for the given segments, in order. */
  function Brackets(segs: seq<string>): string
    decreases |segs|
  {
    if |segs| == 0 then "" else "['" + segs[0] + "']" + Brackets(segs[1..])
  }

  lemma {:induction false} BracketsAppend(segs: seq<string>, x: string)
    ensures Brackets(segs + [x]) == Brackets(segs) + "['" + x + "']"
    decreases |segs|
  {
    if |segs| == 0 {
      assert segs + [x] == [x];
      assert Brackets([x]) == "['" + x + "']" + Brackets([]);
    } else {
      assert (segs + [x])[0] == segs[0];
      assert (segs + [x])[1..] == segs[1..] + [x];
      BracketsAppend(segs[1..], x);
    }
  }

  /** The access path a colon reference denotes: `top` followed by one
      `['seg']` per colon-separated segment. */
  function NamespacePath(block: string, top: string): string
  {
    top + Brackets(Split(block, ':'))
  }

  /** `parse_namespace($block, $top_level)`, with the same loop over the segments. */
  method ParseNamespace(block: string, top: string) returns (alias: string)
    ensures alias == NamespacePath(block, top)
  {
    var varnames := Split(block, ':');
    alias := top;
    var i := 0;
    while i < |varnames|
      invariant 0 <= i <= |varnames|
      invariant alias == top + Brackets(varnames[..i])
    {
      BracketsAppend(varnames[..i], varnames[i]);
      assert varnames[..i + 1] == varnames[..i] + [varnames[i]];
      alias := alias + "['" + varnames[i] + "']";
      i := i + 1;
    }
    assert varnames[..i] == varnames;
  }

  /** Reads the segments back out of a bracket chain. */
  function Unbracket(s: string): Option<seq<string>>
    decreases |s|
  {
    if |s| == 0 then Some([])
    else if |s| < 2 || s[..2] != "['" then None
    else
      var body := s[2..];
      var seg := BeforeFirst(body, "'");
      if |seg| + 2 <= |body| && body[|seg|..|seg| + 2] == "']" then
        match Unbracket(body[|seg| + 2..])
        case None => None
        case Some(rest) => Some([seg] + rest)
      else None
  }

  lemma BeforeFirstQuote(x: string, y: string)
    requires '\'' !in x && |y| > 0 && y[0] == '\''
    ensures BeforeFirst(x + y, "'") == x
  {
    var s := x + y;
    var r := BeforeFirst(s, "'");
    assert s[|x|..|x| + 1] == "'";
    assert OccursAt(s, "'", |x|);
    assert |r| <= |x|;
    assert s[|r|..|r| + 1] == "'";
    assert x == s[..|x|];
  }

  /** One bracket in front of a chain is read off first. */
  lemma UnbracketStep(seg: string, tail: string)
    requires '\'' !in seg
    ensures Unbracket("['" + seg + "']" + tail)
         == match Unbracket(tail) case None => None case Some(rest) => Some([seg] + rest)
  {
    var s := "['" + seg + "']" + tail;
    assert s[..2] == "['";
    var body := s[2..];
    assert body == seg + ("']" + tail);
    BeforeFirstQuote(seg, "']" + tail);
    assert body[|seg|..|seg| + 2] == "']";
    assert body[|seg| + 2..] == tail;
  }

  /** Decoding a bracket chain gives back the segments it was built from,
      provided no segment contains a quote. */
  lemma {:induction false} UnbracketBrackets(segs: seq<string>)
    requires forall i :: 0 <= i < |segs| ==> '\'' !in segs[i]
    ensures Unbracket(Brackets(segs)) == Some(segs)
    decreases |segs|
  {
    if |segs| > 0 {
      var tail := Brackets(segs[1..]);
      assert Brackets(segs) == "['" + segs[0] + "']" + tail;
      UnbracketStep(segs[0], tail);
      UnbracketBrackets(segs[1..]);
      assert [segs[0]] + segs[1..] == segs;
    }
  }

  lemma {:induction false} SplitKeepsAbsent(s: string, c: char, d: char)
    requires d !in s
    ensures forall i :: 0 <= i < |Split(s, c)| ==> d !in Split(s, c)[i]
    decreases |s|
  {
    if |s| > 0 {
      SplitKeepsAbsent(s[1..], c, d);
    }
  }

  /** Distinct quote-free references compile to distinct access paths: the
      path determines the reference. */
  lemma NamespacePathInjective(b1: string, b2: string, top: string)
    requires '\'' !in b1 && '\'' !in b2
    requires NamespacePath(b1, top) == NamespacePath(b2, top)
    ensures b1 == b2
  {
    var s1, s2 := Split(b1, ':'), Split(b2, ':');
    assert Brackets(s1) == NamespacePath(b1, top)[|top|..];
    assert Brackets(s2) == NamespacePath(b2, top)[|top|..];
    SplitKeepsAbsent(b1, ':', '\'');
    SplitKeepsAbsent(b2, ':', '\'');
    UnbracketBrackets(s1);
    UnbracketBrackets(s2);
    assert s1 == s2;
  }

  // ---------------------------------------------------------------------
  // parse_output_block and the output replacement
  // ---------------------------------------------------------------------

  /** `preg_replace('#^\{|\}$#', '', $block)`: drop one leading `{` and one
      final `}`; PCRE's `$` also lets the `}` stand before a final newline. */
  function StripBraces(b: string): string
  {
    var b1 := if |b| > 0 && b[0] == '{' then b[1..] else b;
    if |b1| > 0 && b1[|b1| - 1] == '}' then b1[..|b1| - 1]
    else if |b1| > 1 && b1[|b1| - 1] == '\n' && b1[|b1| - 2] == '}' then b1[..|b1| - 2] + "\n"
    else b1
  }

  /** A reference starting with `C:` names a PHP constant. */
  predicate IsConstantRef(b: string)
  {
    |b| >= 2 && b[..2] == "C:"
  }

  /** `parse_output_block($block, $top_level)`: a constant reference gives the
      text after `C:`; every other reference, with or without colons, gives
      its access path under `top`. */
  function ParseOutputBlock(block: string, top: string): (r: string)
    ensures var b := StripBraces(block);
            && (IsConstantRef(b) ==> r == b[2..])
            && (!IsConstantRef(b) ==> r == NamespacePath(b, top))
  {
    var b := StripBraces(block);
    if ':' in b then
      if IsConstantRef(b) then b[2..] else NamespacePath(b, top)
    else
      NoColonPath(b, top);
      top + "['" + b + "']"
  }

  /** A colon-free reference is one bracket under `top`. */
  lemma NoColonPath(b: string, top: string)
    requires ':' !in b
    ensures NamespacePath(b, top) == top + "['" + b + "']"
    ensures !IsConstantRef(b)
  {
    SplitNoSeparator(b, ':');
    assert Brackets([b]) == "['" + b + "']" + Brackets([]);
    if |b| >= 2 {
      assert b[1] != ':';
    }
  }

  lemma StripBracesToken(w: string)
    requires '{' !in w && '}' !in w
    ensures StripBraces("{" + w + "}") == w
  {
    assert ("{" + w + "}")[1..] == w + "}";
    assert (w + "}")[..|w|] == w;
  }

  /** Echo a variable only when it is set, so an unset one prints nothing. */
  function GuardedEcho(alias: string): string
  {
    "<? echo isset(" + alias + ") ? " + alias + " : '' ?>"
  }

  /** Echo a constant only when it is defined. */
  function DefinedEcho(name: string): string
  {
    "<? if(defined('" + name + "')): echo " + name + "; endif; ?>"
  }

  /** The replacement chosen for one output token (step 3 of `parse`): a
      `defined` check for a constant, an `isset` check for anything else. */
  function CompileOutput(token: string): (r: string)
    ensures var alias := ParseOutputBlock(token, "$vars");
      && (r == DefinedEcho(alias) <==> IsConstantName(alias))
      && (r == GuardedEcho(alias) <==> !IsConstantName(alias))
  {
    EchoFormsDiffer(ParseOutputBlock(token, "$vars"));
    var alias := ParseOutputBlock(token, "$vars");
    if IsConstantName(alias) then DefinedEcho(alias) else GuardedEcho(alias)
  }

  lemma EchoFormsDiffer(a: string)
    ensures DefinedEcho(a) != GuardedEcho(a)
  {
    assert DefinedEcho(a)[3] == 'i' && GuardedEcho(a)[3] == 'e';
  }

  /** A variable token `{NAME}` or `{NS:NAME}` always becomes an `isset`-guarded
      echo of its access path: the path starts with `$`, which no constant
      name does. */
  lemma VariableTokenIsGuarded(w: string)
    requires '{' !in w && '}' !in w && !IsConstantRef(w)
    ensures CompileOutput("{" + w + "}") == GuardedEcho(NamespacePath(w, "$vars"))
  {
    StripBracesToken(w);
    var top := "$vars";
    assert top[0] == '$';
    DollarIsNotConstant(NamespacePath(w, top), top);
  }

  /** No constant name starts with `$`, with or without a trailing newline. */
  lemma DollarIsNotConstant(alias: string, top: string)
    requires 0 < |top| <= |alias| && top[0] == '$' && alias[..|top|] == top
    ensures !IsConstantName(alias)
  {
    assert alias[0] == top[0];
    assert !ConstChar(alias[0]);
    if |alias| > 0 && alias[|alias| - 1] == '\n' && |alias| > 1 {
      assert alias[..|alias| - 1][0] == '$';
    }
  }

  /** `{C:name}` names the bare constant `name`. */
  lemma ConstantTokenAlias(name: string)
    requires '{' !in name && '}' !in name
    ensures ParseOutputBlock("{C:" + name + "}", "$vars") == name
  {
    var w := "C:" + name;
    assert "{C:" + name + "}" == "{" + w + "}";
    assert '{' !in w && '}' !in w;
    StripBracesToken(w);
    assert w[..2] == "C:" && w[2..] == name;
  }

  /** `{C:NAME}` with an upper-case constant name becomes a `defined`-guarded
      echo of the constant. */
  lemma ConstantTokenIsDefinedGuarded(name: string)
    requires ConstantBody(name)
    ensures CompileOutput("{C:" + name + "}") == DefinedEcho(name)
  {
    assert '{' !in name && '}' !in name by {
      forall i | 0 <= i < |name| ensures name[i] != '{' && name[i] != '}' {
        assert ConstChar(name[i]);
      }
    }
    ConstantTokenAlias(name);
  }

  /** `{C:name}` whose name is not a constant name falls back to an
      `isset`-guarded echo of the bare name. */
  lemma LowerCaseConstantTokenIsGuarded(name: string)
    requires '{' !in name && '}' !in name && !IsConstantName(name)
    ensures CompileOutput("{C:" + name + "}") == GuardedEcho(name)
  {
    ConstantTokenAlias(name);
  }

  // ---------------------------------------------------------------------
  // parse_condition_block
  // ---------------------------------------------------------------------

  const HeaderSep := " ^v^ "

  predicate StartsWith(s: string, p: string)
  {
    |p| <= |s| && s[..|p|] == p
  }

  /** `(.+)$` on what follows `TYPE: `: at least one character and no
      newline, except that one final newline may follow. */
  predicate HeaderRest(rest: string)
  {
    (|rest| >= 1 && '\n' !in rest)
    || (|rest| >= 2 && rest[|rest| - 1] == '\n' && '\n' !in rest[..|rest| - 1])
  }

  /** The condition type the anchored alternation `(IF|ELSE|ELSEIF): ` picks. */
  function HeaderType(c: string): Option<string>
  {
    if StartsWith(c, "IF: ") then Some("IF")
    else if StartsWith(c, "ELSE: ") then Some("ELSE")
    else if StartsWith(c, "ELSEIF: ") then Some("ELSEIF")
    else None
  }

  /** `preg_replace('#^(IF|ELSE|ELSEIF): (.+)$#', '$1 ^v^ $2', $c)`. */
  function HeaderRewrite(c: string): string
  {
    match HeaderType(c)
    case Some(t) =>
      if HeaderRest(c[|t| + 2..]) then t + HeaderSep + c[|t| + 2..] else c
    case None => c
  }

  /** `list($type, $parts) = explode(' ^v^ ', ...)`: the first two pieces; a
      missing second piece reads as the empty string. */
  function SplitHeader(c: string): (string, string)
  {
    var s := HeaderRewrite(c);
    var ty := BeforeFirst(s, HeaderSep);
    if |ty| == |s| then (ty, "")
    else (ty, BeforeFirst(s[|ty| + |HeaderSep|..], HeaderSep))
  }

  /** A well-formed condition splits into its type and its expression. */
  lemma SplitWellFormedHeader(t: string, rest: string)
    requires t == "IF" || t == "ELSEIF" || t == "ELSE"
    requires |rest| >= 1 && '\n' !in rest
    requires forall k: nat :: k < |rest| ==> !OccursAt(rest, HeaderSep, k)
    ensures SplitHeader(t + ": " + rest) == (t, rest)
  {
    var c := t + ": " + rest;
    HeaderTypeOf(t, rest);
    assert HeaderRewrite(c) == t + HeaderSep + rest;
    TypeBeforeSep(t, rest);
  }

  /** The anchored alternation picks the type the header starts with. */
  lemma HeaderTypeOf(t: string, rest: string)
    requires t == "IF" || t == "ELSEIF" || t == "ELSE"
    ensures HeaderType(t + ": " + rest) == Some(t)
    ensures (t + ": " + rest)[|t| + 2..] == rest
  {
    var c := t + ": " + rest;
    assert c[..|t| + 2] == t + ": ";
    if t == "ELSEIF" {
      assert c[..4][0] != "IF: "[0];
      assert c[..6][4] != "ELSE: "[4];
    } else if t == "ELSE" {
      assert c[..4][0] != "IF: "[0];
    }
  }

  /** Splitting `type ^v^ rest` at the separator gives back both halves. */
  lemma TypeBeforeSep(t: string, rest: string)
    requires t == "IF" || t == "ELSEIF" || t == "ELSE"
    requires forall k: nat :: k < |rest| ==> !OccursAt(rest, HeaderSep, k)
    ensures var s := t + HeaderSep + rest;
            var ty := BeforeFirst(s, HeaderSep);
            ty == t && |ty| != |s| && BeforeFirst(s[|ty| + |HeaderSep|..], HeaderSep) == rest
  {
    var s := t + HeaderSep + rest;
    assert OccursAt(s, HeaderSep, |t|);
    forall k: nat | k < |t| ensures !OccursAt(s, HeaderSep, k) {
      if k + 5 <= |s| {
        assert s[k..k + 5][1] == s[k + 1];
        if k + 1 < |t| {
          assert s[k + 1] == t[k + 1];
        } else {
          assert s[k + 1] == ' ';
        }
        assert s[k..k + 5][1] != HeaderSep[1];
      }
    }
    var ty := BeforeFirst(s, HeaderSep);
    assert |ty| == |t|;
    assert ty == s[..|t|] == t;
    assert s[|t| + 5..] == rest;
    var r := BeforeFirst(rest, HeaderSep);
    assert |r| == |rest|;
  }

  /** The text of one condition token with its brackets removed. The output
      reference test runs first, so any word of three or more characters,
      `and`, `not`, `neq`, `gte`, `lte` and numbers such as `100` included,
      becomes a variable path. */
  function RewriteWord(p: string): string
  {
    if IsOutputRef(p) then ParseOutputBlock(p, "$vars")
    else if HasOperator(p) then Operator(p)
    else p
  }

  /** One space-separated part: an optional `(`, the rewritten text, an
      optional `)`. */
  function RewritePart(part: string): (r: seq<string>)
    ensures 1 <= |r| <= 3
  {
    var open := |part| > 0 && part[0] == '(';
    var p1 := if open then part[1..] else part;
    var close := |p1| > 0 && p1[|p1| - 1] == ')';
    var p2 := if close then p1[..|p1| - 1] else p1;
    (if open then ["("] else []) + [RewriteWord(p2)] + (if close then [")"] else [])
  }

  /** A part cut into its optional opening bracket, the word, and its
      optional closing bracket. The cut loses nothing. */
  function BracketSplit(part: string): (b: (string, string, string))
    ensures b.0 + b.1 + b.2 == part
    ensures b.0 == (if |part| > 0 && part[0] == '(' then "(" else "")
    ensures b.2 == "" || b.2 == ")"
    ensures b.2 == ")" <==> |b.0| < |part| && part[|part| - 1] == ')'
  {
    var pre := if |part| > 0 && part[0] == '(' then "(" else "";
    var p1 := part[|pre|..];
    var post := if |p1| > 0 && p1[|p1| - 1] == ')' then ")" else "";
    assert p1[..|p1| - |post|] + post == p1;
    (pre, p1[..|p1| - |post|], post)
  }

  /** The brackets of a part come out as tokens of their own around the
      rewritten word. */
  lemma RewritePartKeepsBrackets(part: string)
    ensures var (pre, w, post) := BracketSplit(part);
            RewritePart(part) == (if pre == "" then [] else [pre]) + [RewriteWord(w)] + (if post == "" then [] else [post])
  {
    var (pre, w, post) := BracketSplit(part);
    var open := |part| > 0 && part[0] == '(';
    var p1 := if open then part[1..] else part;
    assert p1 == part[|pre|..];
    assert p1 == w + post;
    var close := |p1| > 0 && p1[|p1| - 1] == ')';
    assert close <==> post == ")";
    var p2 := if close then p1[..|p1| - 1] else p1;
    assert p2 == w;
  }

  function RewriteParts(parts: seq<string>): seq<string>
    decreases |parts|
  {
    if |parts| == 0 then [] else RewritePart(parts[0]) + RewriteParts(parts[1..])
  }

  /** `parse_condition_block($condition)`: always a complete PHP
      alternative-syntax opener `<? ... (...): ?>`. */
  function ParseConditionBlock(c: string): (r: string)
    ensures |r| >= 8 && r[..3] == "<? " && r[|r| - 5..] == "): ?>"
  {
    var (ty, body) := SplitHeader(c);
    "<? " + Lower(ty) + " (" + Join(RewriteParts(Split(body, ' ')), " ") + "): ?>"
  }

  /** The operator test adds nothing to the fallback: a word that is not an
      output reference is rewritten exactly as `operator` rewrites it. */
  lemma RewriteWordIsOperatorFallback(p: string)
    ensures RewriteWord(p) == if IsOutputRef(p) then ParseOutputBlock(p, "$vars") else Operator(p)
  {
    if !IsOutputRef(p) && !HasOperator(p) && p in OperatorAliases {
      AliasesHaveOperator(p);
    }
  }

  /** A word of fewer than three characters is not an output reference. */
  lemma ShortWordIsNotRef(w: string)
    requires |w| < 3 && ':' !in w && '\n' !in w
    ensures !IsOutputRef(w)
  {
    SplitNoSeparator(w, ':');
  }

  /** A word of three or more word characters is an output reference. */
  lemma LongWordIsRef(w: string)
    requires |w| >= 3 && AllWord(w)
    ensures IsOutputRef(w)
    ensures RewriteWord(w) == "$vars['" + w + "']"
  {
    PlainWord(w);
    WordPath(w, "$vars");
  }

  /** A word is a one-segment output reference with nothing to strip. */
  lemma PlainWord(w: string)
    requires |w| >= 3 && AllWord(w)
    ensures OutputRefBody(w)
    ensures ':' !in w && StripBraces(w) == w
  {
    SplitNoSeparator(w, ':');
    assert '{' !in w && '}' !in w && ':' !in w by {
      forall i | 0 <= i < |w| ensures w[i] != '{' && w[i] != '}' && w[i] != ':' {
        assert WordChar(w[i]);
      }
    }
  }

  lemma WordPath(w: string, top: string)
    requires ':' !in w && StripBraces(w) == w
    ensures ParseOutputBlock(w, top) == top + "['" + w + "']"
  {
    NoColonPath(w, top);
  }

  /** Only the two-letter aliases reach `operator`; the three-letter ones are
      taken for variable names. */
  lemma AliasPrecedence(a: string)
    requires a in OperatorAliases
    ensures |a| == 2 ==> RewriteWord(a) == OperatorAliases[a]
    ensures |a| == 3 ==> RewriteWord(a) == "$vars['" + a + "']"
  {
    if |a| == 2 {
      ShortWordIsNotRef(a);
      AliasesHaveOperator(a);
    } else {
      assert AllWord(a);
      LongWordIsRef(a);
    }
  }

  /** Brackets around a word are split off and kept in place. */
  lemma RewriteBracketed(w: string)
    ensures RewritePart("(" + w + ")") == ["(", RewriteWord(w), ")"]
  {
    var part := "(" + w + ")";
    assert part[1..] == w + ")";
    assert (w + ")")[..|w|] == w;
  }

  /** A part that is neither bracketed, nor an output reference, nor an alias
      passes through verbatim. */
  predicate Literal(p: string)
  {
    && (|p| == 0 || (p[0] != '(' && p[|p| - 1] != ')'))
    && !IsOutputRef(p) && p !in OperatorAliases
  }

  /** A condition made only of literals compiles to itself (identity law). */
  lemma {:induction false} LiteralsPassThrough(parts: seq<string>)
    requires forall i :: 0 <= i < |parts| ==> Literal(parts[i])
    ensures RewriteParts(parts) == parts
    decreases |parts|
  {
    if |parts| > 0 {
      RewriteWordIsOperatorFallback(parts[0]);
      LiteralsPassThrough(parts[1..]);
      assert [parts[0]] + parts[1..] == parts;
    }
  }

  lemma LiteralConditionBody(body: string)
    requires forall i :: 0 <= i < |Split(body, ' ')| ==> Literal(Split(body, ' ')[i])
    ensures Join(RewriteParts(Split(body, ' ')), " ") == body
  {
    LiteralsPassThrough(Split(body, ' '));
  }

  /** A well-formed condition compiles to `<? type (tokens): ?>`: the type in
      lower case and the rewritten parts of the expression joined by spaces. */
  lemma ConditionShape(t: string, rest: string)
    requires t == "IF" || t == "ELSEIF" || t == "ELSE"
    requires |rest| >= 1 && '\n' !in rest
    requires forall k: nat :: k < |rest| ==> !OccursAt(rest, HeaderSep, k)
    ensures ParseConditionBlock(t + ": " + rest)
         == "<? " + Lower(t) + " (" + Join(RewriteParts(Split(rest, ' ')), " ") + "): ?>"
  {
    SplitWellFormedHeader(t, rest);
  }

  /** A condition the header pattern does not match keeps its whole text as
      the type and has an empty expression: `explode` finds no separator, the
      missing second piece reads as `""`, and `""` passes through. */
  lemma UnmatchedCondition(c: string)
    requires HeaderType(c).None?
    requires forall k: nat :: k < |c| ==> !OccursAt(c, HeaderSep, k)
    ensures ParseConditionBlock(c) == "<? " + Lower(c) + " (): ?>"
  {
    assert HeaderRewrite(c) == c;
    assert |BeforeFirst(c, HeaderSep)| == |c|;
    assert Split("", ' ') == [""];
    ShortWordIsNotRef("");
    assert !HasOperator("") by {
      assert !Contains("", "&&") && !Contains("", "||") && !Contains("", "eq") && !Contains("", "and");
      assert !Contains("", "not") && !Contains("", "or") && !Contains("", "gt") && !Contains("", "lt");
    }
    assert RewritePart("") == [""];
    assert RewriteParts([""]) == RewritePart("") + RewriteParts([]);
  }

  // ---------------------------------------------------------------------
  // Loop naming and row flags (parse_loop_block)
  // ---------------------------------------------------------------------

  /** The storage key of a loop: the last dot segment when the name has a dot
      after its first character; otherwise (no dot, or a dot only counted by
      `strpos` as position 0, which PHP reads as false) the whole name. */
  function LoopStorageKey(name: string): (r: string)
    ensures !(|name| > 0 && name[0] != '.' && '.' in name) ==> r == name
    ensures |name| > 0 && name[0] != '.' && '.' in name ==>
              '.' !in r && |r| < |name| && r == name[|name| - |r|..] && name[|name| - |r| - 1] == '.'
  {
    FirstDot(name);
    var i := |BeforeFirst(name, ".")|;
    if 0 < i < |name| then LastSegment(name, '.') else name
  }

  /** `strpos($name, '.')` is positive exactly when the name has a dot but
      does not start with one. */
  lemma FirstDot(name: string)
    ensures var i := |BeforeFirst(name, ".")|;
            (0 < i < |name|) <==> (|name| > 0 && name[0] != '.' && '.' in name)
  {
    var i := |BeforeFirst(name, ".")|;
    if i < |name| {
      assert name[i..i + 1] == ".";
      assert name[i] == '.';
    }
    if |name| > 0 && name[0] == '.' {
      assert OccursAt(name, ".", 0);
    }
    if '.' in name {
      var k :| 0 <= k < |name| && name[k] == '.';
      assert OccursAt(name, ".", k);
    }
  }

  /** The PHP variable naming the current record: `$` and the name with dots
      turned into underscores. */
  function LoopAlias(name: string): (r: string)
    ensures |r| == |name| + 1 && r[0] == '$'
    ensures '.' !in r
    ensures forall i :: 0 <= i < |name| ==> r[i + 1] == if name[i] == '.' then '_' else name[i]
  {
    "$" + seq(|name|, i requires 0 <= i < |name| => if name[i] == '.' then '_' else name[i])
  }

  /** The access path of the loop list under `top` (`$vars`, or the alias of
      the enclosing loop for a nested one). */
  function LoopAccess(name: string, top: string): string
  {
    top + "['" + LoopStorageKey(name) + "']"
  }

  /** A name `parent.child` is stored under `child` alone; the parent part is
      only informational. */
  lemma NestedLoopKey(parent: string, child: string)
    requires |parent| > 0 && '.' !in parent && '.' !in child
    ensures LoopStorageKey(parent + "." + child) == child
  {
    var name := parent + "." + child;
    assert Split(name, '.') == [parent, child] by {
      SplitJoin([parent, child], '.');
      assert Join([parent, child], ['.']) == name;
    }
    assert name[..|parent|] == parent;
    assert OccursAt(name, ".", |parent|);
    assert |BeforeFirst(name, ".")| == |parent|;
  }

  /** The alias of `parent.child` joins the two parts with an underscore. */
  lemma NestedLoopAlias(parent: string, child: string)
    requires '.' !in parent && '.' !in child
    ensures LoopAlias(parent + "." + child) == LoopAlias(parent) + "_" + child
  {
    var name := parent + "." + child;
    var a, b := LoopAlias(name), LoopAlias(parent) + "_" + child;
    forall j | 0 <= j < |a| ensures a[j] == b[j] {
      if 0 < j <= |parent| {
        assert name[j - 1] == parent[j - 1];
      } else if j > |parent| + 1 {
        assert name[j - 1] == child[j - 2 - |parent|];
      }
    }
  }

  /** Names the loop tag pattern accepts (word characters only) are their own
      storage key, so the dotted branch is never reached from `parse`. */
  lemma WordLoopNameIsKey(name: string)
    requires AllWord(name)
    ensures LoopStorageKey(name) == name
    ensures LoopAlias(name) == "$" + name
  {
  }

  /** A leading dot is at `strpos` position 0, which PHP treats as "no dot". */
  lemma LeadingDotKeepsWholeName(name: string)
    requires |name| > 0 && name[0] == '.'
    ensures LoopStorageKey(name) == name
  {
    assert name[..1] == ".";
  }

  datatype RowFlags = RowFlags(isFirst: bool, isOdd: bool, isEven: bool, isLast: bool)

  /** The four flags of record `i` of `n`. `IS_ODD_ROW` holds on even
      indices, that is on odd row numbers when rows are counted from one. */
  function Flags(i: nat, n: nat): (f: RowFlags)
    ensures f.isFirst <==> i == 0
    ensures f.isLast <==> i + 1 == n
    ensures f.isOdd <==> (i + 1) % 2 == 1
    ensures f.isEven <==> !f.isOdd
  {
    var odd := i % 2 == 0;
    RowFlags(i == 0, odd, !odd, i == n - 1)
  }

  /** Over a whole loop of `n > 0` records exactly the first record is first,
      exactly the last is last, and the odd flag alternates from row to row. */
  lemma LoopFlags(n: nat)
    requires n > 0
    ensures forall i :: 0 <= i < n ==> (Flags(i, n).isFirst <==> i == 0)
    ensures forall i :: 0 <= i < n ==> (Flags(i, n).isLast <==> i == n - 1)
    ensures forall i :: 0 <= i < n - 1 ==> Flags(i, n).isOdd != Flags(i + 1, n).isOdd
    ensures n == 1 ==> Flags(0, n).isFirst && Flags(0, n).isLast
  {
  }
}

=== FILE: IgnoreAsWritten.dfy ===
/**
 When the stash of TemplateParser.php's `parse` is right as written.

 `StashAsWritten` replaces the full text of region `i` by placeholder `i`
 everywhere in the template, not only at the region's own position. That
 goes wrong only when a region's text also occurs where it does not start a
 region, which needs an opening tag inside some region. For a template
 whose regions hold no opening tag (and no `@`), stash then restore gives
 the template with every region unwrapped.

 The proof follows the template through the stash as a list of parts:
 literal text, a placeholder already written, or a region still pending.
 */
module IgnoreAsWritten {
  import opened Strings
  import opened IgnoreBlocks

  /** No region of the template holds an opening tag of its own. */
  predicate NoNestedOpen(s: string)
  {
    var ps := Scan(s);
    forall k :: 0 <= k < |ps| ==> ps[k].Block? ==> NoOpen(ps[k].inner)
  }

  predicate Clean(c: string)
  {
    NoOpen(c) && NoClose(c)
  }

  // ---------------------------------------------------------------------
  // The template part way through the stash
  // ---------------------------------------------------------------------

  datatype Part = Lit(text: string) | Slot(id: nat) | Pend(inner: string)

  function PartText(stamp: nat, x: Part): string
  {
    match x
    case Lit(t) => t
    case Slot(j) => Placeholder(stamp, j)
    case Pend(c) => Open + c + Close
  }

  function FlatParts(stamp: nat, xs: seq<Part>): string
    decreases |xs|
  {
    if |xs| == 0 then "" else PartText(stamp, xs[0]) + FlatParts(stamp, xs[1..])
  }

  /** What the stash relies on at each part: literal text opens no tag
      before the next part (which is never literal) and holds no complete
      region at the end; a pending region's inner text holds no tag. */
  predicate GoodAt(xs: seq<Part>, k: nat)
    requires k < |xs|
  {
    match xs[k]
    case Lit(t) => if k + 1 < |xs| then NoOpen(t) && !xs[k + 1].Lit? else NoRegion(t)
    case Slot(_) => true
    case Pend(c) => Clean(c)
  }

  predicate Good(xs: seq<Part>)
  {
    forall k: nat :: k < |xs| ==> GoodAt(xs, k)
  }

  /** Every pending region with inner text `c` becomes placeholder `i`. */
  function Mark(xs: seq<Part>, c: string, i: nat): (r: seq<Part>)
    ensures |r| == |xs|
    ensures forall k :: 0 <= k < |xs| ==> r[k] == if xs[k] == Pend(c) then Slot(i) else xs[k]
  {
    seq(|xs|, k requires 0 <= k < |xs| => if xs[k] == Pend(c) then Slot(i) else xs[k])
  }

  lemma GoodTail(xs: seq<Part>)
    requires |xs| > 0 && Good(xs)
    ensures Good(xs[1..])
  {
    forall k: nat | k < |xs[1..]| ensures GoodAt(xs[1..], k) {
      assert GoodAt(xs, k + 1);
      assert xs[1..][k] == xs[k + 1];
      if k + 1 < |xs[1..]| {
        assert xs[1..][k + 1] == xs[k + 2];
      }
    }
  }

  lemma GoodMark(xs: seq<Part>, c: string, i: nat)
    requires Good(xs)
    ensures Good(Mark(xs, c, i))
  {
    var r := Mark(xs, c, i);
    forall k: nat | k < |r| ensures GoodAt(r, k) {
      assert GoodAt(xs, k);
    }
  }

  // ---------------------------------------------------------------------
  // Where a region's full text cannot start
  // ---------------------------------------------------------------------

  lemma OccursAtSplit(s: string, a: string, b: string, k: nat)
    ensures OccursAt(s, a + b, k) ==> OccursAt(s, a, k) && OccursAt(s, b, k + |a|)
  {
    if OccursAt(s, a + b, k) {
      assert s[k..k + |a|] == (a + b)[..|a|];
      assert s[k + |a|..k + |a| + |b|] == (a + b)[|a|..];
    }
  }

  lemma OccursAtShift(a: string, u: string, t: string, k: nat)
    ensures OccursAt(a + u, t, |a| + k) == OccursAt(u, t, k)
  {
    if |a| + k + |t| <= |a + u| {
      assert (a + u)[|a| + k..|a| + k + |t|] == u[k..k + |t|];
    }
  }

  lemma CloseTail()
    ensures forall m :: 1 <= m < |Close| ==> Close[m] != '{'
    ensures Close[0] == '{' && Close[1] == '/'
  {
    assert Close == "{" + "/IGNORE}";
    assert '{' !in "/IGNORE}";
  }

  /** A tag with `{` only in front is not found in `t`, nor straddling the
      end of `t`, when the text after `t` starts with `{`. */
  lemma NoTagBeforeBrace(t: string, z: string, tag: string)
    requires |tag| > 0 && forall m :: 1 <= m < |tag| ==> tag[m] != '{'
    requires forall j: nat :: j < |t| ==> !OccursAt(t, tag, j)
    requires |z| > 0 && z[0] == '{'
    ensures forall j: nat :: j < |t| ==> !OccursAt(t + z, tag, j)
  {
    forall j: nat | j < |t| ensures !OccursAt(t + z, tag, j) {
      if j + |tag| <= |t| {
        assert (t + z)[j..j + |tag|] == t[j..j + |tag|];
        assert !OccursAt(t, tag, j);
      } else if j + |tag| <= |t + z| {
        var m := |t| - j;
        assert 1 <= m < |tag| && tag[m] != '{';
        assert (t + z)[|t|] == z[0];
        assert (t + z)[j..j + |tag|][m] == (t + z)[|t|];
      }
    }
  }

  /** The first closing tag after a clean inner text is the one right after it. */
  lemma FirstClose(c: string, z: string)
    requires NoClose(c)
    ensures |BeforeFirst(c + Close + z, Close)| == |c|
  {
    var w := c + Close + z;
    CloseTail();
    NoTagBeforeBrace(c, Close + z, Close);
    assert w == c + (Close + z);
    assert w[|c|..|c| + |Close|] == Close;
    BeforeFirstAt(w, Close, |c|);
  }

  lemma LitNoMatch(t: string, y: string, c: string)
    requires NoOpen(t) && |y| > 0 && y[0] == '{'
    ensures forall k: nat :: k < |t| ==> !OccursAt(t + y, Open + c + Close, k)
  {
    OpenTail();
    NoTagBeforeBrace(t, y, Open);
    forall k: nat | k < |t| ensures !OccursAt(t + y, Open + c + Close, k) {
      assert Open + c + Close == Open + (c + Close);
      OccursAtSplit(t + y, Open, c + Close, k);
    }
  }

  lemma LastLitNoMatch(t: string, c: string)
    requires NoRegion(t)
    ensures forall k: nat :: k < |t| ==> !OccursAt(t, Open + c + Close, k)
  {
    forall k: nat | k < |t| ensures !OccursAt(t, Open + c + Close, k) {
      OccursAtSplit(t, Open + c, Close, k);
      OccursAtSplit(t, Open, c, k);
    }
  }

  lemma SlotNoMatch(stamp: nat, j: nat, y: string, c: string)
    ensures forall k: nat :: k < |Placeholder(stamp, j)| ==> !OccursAt(Placeholder(stamp, j) + y, Open + c + Close, k)
  {
    var p, f := Placeholder(stamp, j), Open + c + Close;
    PlaceholderBraces(stamp, j);
    OpenTail();
    forall k: nat | k < |p| ensures !OccursAt(p + y, f, k) {
      if k == 0 {
        assert (p + y)[1] != f[1];
      } else {
        assert (p + y)[k] != f[0];
      }
    }
  }

  /** At a region's opening tag only its own full text starts: the first
      closing tag after the tag fixes the inner text. */
  lemma PendNoMatchAtOpen(d: string, y: string, c: string)
    requires NoClose(d) && NoClose(c) && d != c
    ensures !OccursAt(Open + d + Close + y, Open + c + Close, 0)
  {
    var s, f := Open + d + Close + y, Open + c + Close;
    var u := d + Close + y;
    assert s == Open + u;
    if OccursAt(s, f, 0) {
      assert u[..|c| + |Close|] == s[|Open|..|f|] == c + Close;
      assert u == c + Close + u[|c| + |Close|..];
      FirstClose(c, u[|c| + |Close|..]);
      FirstClose(d, y);
    }
  }

  /** Inside a clean inner text no opening tag starts. */
  lemma PendNoMatchInside(d: string, y: string, c: string, k: nat)
    requires NoOpen(d) && |Open| <= k < |Open| + |d|
    ensures !OccursAt(Open + d + Close + y, Open + c + Close, k)
  {
    var s, f := Open + d + Close + y, Open + c + Close;
    var u := d + Close + y;
    assert s == Open + u;
    OpenTail();
    assert f == Open + (c + Close);
    OccursAtSplit(s, Open, c + Close, k);
    assert u == d + (Close + y);
    NoTagBeforeBrace(d, Close + y, Open);
    OccursAtShift(Open, u, Open, k - |Open|);
  }

  /** A pending region with another inner text holds no start of region `c`'s
      full text: at its own opening tag the first closing tag would fix the
      inner text, inside its inner text no opening tag starts, and no other
      position holds a `{` followed by `I`. */
  lemma PendNoMatch(d: string, y: string, c: string)
    requires Clean(d) && Clean(c) && d != c
    ensures forall k: nat :: k < |Open + d + Close| ==> !OccursAt(Open + d + Close + y, Open + c + Close, k)
  {
    var s, f := Open + d + Close + y, Open + c + Close;
    OpenTail();
    CloseTail();
    forall k: nat | k < |Open + d + Close| ensures !OccursAt(s, f, k) {
      if k == 0 {
        PendNoMatchAtOpen(d, y, c);
      } else if k < |Open| {
        assert s[k] == Open[k] != f[0];
      } else if k < |Open| + |d| {
        PendNoMatchInside(d, y, c, k);
      } else if k == |Open| + |d| {
        assert s[k + 1] == Close[1] != f[1];
      } else {
        assert s[k] == Close[k - |Open| - |d|] != f[0];
      }
    }
  }

  // ---------------------------------------------------------------------
  // One `str_replace` of the stash
  // ---------------------------------------------------------------------

  lemma FlatPartsBrace(stamp: nat, xs: seq<Part>)
    requires |xs| > 0 && !xs[0].Lit?
    ensures |FlatParts(stamp, xs)| > 0 && FlatParts(stamp, xs)[0] == '{'
  {
    var h := PartText(stamp, xs[0]);
    assert FlatParts(stamp, xs)[0] == h[0];
  }

  /** Region `c`'s full text does not start inside any part but a pending
      region with inner text `c`. */
  lemma NoMatchInHead(stamp: nat, xs: seq<Part>, c: string)
    requires |xs| > 0 && GoodAt(xs, 0) && Clean(c) && xs[0] != Pend(c)
    ensures var h, y := PartText(stamp, xs[0]), FlatParts(stamp, xs[1..]);
      forall k: nat :: k < |h| ==> !OccursAt(h + y, Open + c + Close, k)
  {
    var y := FlatParts(stamp, xs[1..]);
    match xs[0]
    case Lit(t) =>
      if |xs| > 1 {
        FlatPartsBrace(stamp, xs[1..]);
        LitNoMatch(t, y, c);
      } else {
        assert y == "";
        assert t + y == t;
        LastLitNoMatch(t, c);
      }
    case Slot(j) => SlotNoMatch(stamp, j, y, c);
    case Pend(d) => PendNoMatch(d, y, c);
  }

  /** Replacing region `c`'s full text by placeholder `i` over the whole
      template turns exactly the pending regions with inner text `c` into
      that placeholder and leaves every other part alone. */
  lemma {:induction false} ReplaceMarks(stamp: nat, xs: seq<Part>, c: string, i: nat)
    requires Good(xs) && Clean(c)
    ensures Replace(FlatParts(stamp, xs), Open + c + Close, Placeholder(stamp, i)) == FlatParts(stamp, Mark(xs, c, i))
    decreases |xs|
  {
    if |xs| > 0 {
      var f, p := Open + c + Close, Placeholder(stamp, i);
      var h, y := PartText(stamp, xs[0]), FlatParts(stamp, xs[1..]);
      GoodTail(xs);
      ReplaceMarks(stamp, xs[1..], c, i);
      assert Mark(xs, c, i)[1..] == Mark(xs[1..], c, i);
      assert GoodAt(xs, 0);
      if xs[0] == Pend(c) {
        assert (h + y)[..|f|] == f;
        assert (h + y)[|f|..] == y;
      } else {
        NoMatchInHead(stamp, xs, c);
        ReplaceSkip(h, y, f, p);
      }
    }
  }

  // ---------------------------------------------------------------------
  // The whole stash
  // ---------------------------------------------------------------------

  /** Mark regions `n`, `n + 1`, ... of `all` in turn. */
  function MarkFrom(xs: seq<Part>, all: seq<string>, n: nat): seq<Part>
    requires n <= |all|
    decreases |all| - n
  {
    if n == |all| then xs else MarkFrom(Mark(xs, all[n], n), all, n + 1)
  }

  /** The inner texts from `n` on, each under its region number. */
  function Indexed(all: seq<string>, n: nat): (r: seq<(nat, string)>)
    requires n <= |all|
    ensures |r| == |all| - n
    ensures forall k :: 0 <= k < |r| ==> r[k] == (n + k, all[n + k])
  {
    seq(|all| - n, k requires 0 <= k < |all| - n => (n + k, all[n + k]))
  }

  /** The source's stash loop is marking, region by region, and its store
      holds each region's inner text under its own placeholder. */
  lemma {:induction false} StashFold(stamp: nat, xs: seq<Part>, all: seq<string>, n: nat)
    requires n <= |all| && Good(xs)
    requires forall m :: 0 <= m < |all| ==> Clean(all[m])
    ensures StashAsWritten(FlatParts(stamp, xs), all[n..], stamp, n)
         == (FlatParts(stamp, MarkFrom(xs, all, n)), Keyed(stamp, Indexed(all, n)))
    decreases |all| - n
  {
    if n < |all| {
      ReplaceMarks(stamp, xs, all[n], n);
      GoodMark(xs, all[n], n);
      StashFold(stamp, Mark(xs, all[n], n), all, n + 1);
      assert all[n..][1..] == all[n + 1..];
      assert Keyed(stamp, Indexed(all, n)) == [(Placeholder(stamp, n), all[n])] + Keyed(stamp, Indexed(all, n + 1));
    }
  }

  // ---------------------------------------------------------------------
  // Which region each part came from
  // ---------------------------------------------------------------------

  /** After marking regions before `n`: text is literal, and a region is
      either still pending (its text is none of the first `n`) or the
      placeholder of an earlier region with the same inner text. */
  predicate TracksAt(x: Part, p: Piece, all: seq<string>, n: nat)
    requires n <= |all|
  {
    match p
    case Text(t) => x == Lit(t)
    case Block(c) => (x == Pend(c) && c !in all[..n]) || (x.Slot? && x.id < n && all[x.id] == c)
  }

  predicate Tracks(xs: seq<Part>, ps: seq<Piece>, all: seq<string>, n: nat)
    requires n <= |all|
  {
    |xs| == |ps| && forall k :: 0 <= k < |ps| ==> TracksAt(xs[k], ps[k], all, n)
  }

  lemma MarkTracks(xs: seq<Part>, ps: seq<Piece>, all: seq<string>, n: nat)
    requires n < |all| && Tracks(xs, ps, all, n)
    ensures Tracks(Mark(xs, all[n], n), ps, all, n + 1)
  {
    assert all[..n + 1] == all[..n] + [all[n]];
  }

  lemma {:induction false} MarkFromTracks(xs: seq<Part>, ps: seq<Piece>, all: seq<string>, n: nat)
    requires n <= |all| && Tracks(xs, ps, all, n)
    ensures Tracks(MarkFrom(xs, all, n), ps, all, |all|)
    decreases |all| - n
  {
    if n < |all| {
      MarkTracks(xs, ps, all, n);
      MarkFromTracks(Mark(xs, all[n], n), ps, all, n + 1);
    }
  }

  /** The template before any replacement. */
  function Lift(ps: seq<Piece>): (xs: seq<Part>)
    ensures |xs| == |ps|
    ensures forall k :: 0 <= k < |ps| ==> xs[k] == match ps[k] case Text(t) => Lit(t) case Block(c) => Pend(c)
  {
    seq(|ps|, k requires 0 <= k < |ps| => match ps[k] case Text(t) => Lit(t) case Block(c) => Pend(c))
  }

  lemma {:induction false} LiftFlat(stamp: nat, ps: seq<Piece>)
    ensures FlatParts(stamp, Lift(ps)) == Flatten(ps)
    decreases |ps|
  {
    if |ps| > 0 {
      assert Lift(ps)[1..] == Lift(ps[1..]);
      LiftFlat(stamp, ps[1..]);
    }
  }

  lemma LiftGood(s: string)
    requires NoNestedOpen(s)
    ensures Good(Lift(Scan(s)))
  {
    var ps := Scan(s);
    var xs := Lift(ps);
    ScanShape(s);
    forall k: nat | k < |xs| ensures GoodAt(xs, k) {
      match ps[k]
      case Text(t) =>
        if k + 1 < |xs| {
          TextThenBlock(ps, k);
          assert xs[k + 1] == Pend(ps[k + 1].inner);
        }
      case Block(c) =>
    }
  }

  lemma TextThenBlock(ps: seq<Piece>, k: nat)
    requires Shaped(ps) && k + 1 < |ps| && ps[k].Text?
    ensures ps[k + 1].Block?
  {
    assert k % 2 == 0;
    assert (k + 1) % 2 == 1;
  }

  lemma {:induction false} BlockInInners(ps: seq<Piece>, k: nat)
    requires k < |ps| && ps[k].Block?
    ensures ps[k].inner in Inners(ps)
    decreases k
  {
    if k > 0 {
      BlockInInners(ps[1..], k - 1);
    }
  }

  /** A property of every region's inner text holds of every stored text. */
  lemma {:induction false} InnersHold(ps: seq<Piece>, P: string -> bool)
    requires forall k :: 0 <= k < |ps| ==> ps[k].Block? ==> P(ps[k].inner)
    ensures forall m :: 0 <= m < |Inners(ps)| ==> P(Inners(ps)[m])
    decreases |ps|
  {
    if |ps| > 0 {
      assert forall k :: 1 <= k < |ps| ==> ps[1..][k - 1] == ps[k];
      InnersHold(ps[1..], P);
    }
  }

  // ---------------------------------------------------------------------
  // Restoring
  // ---------------------------------------------------------------------

  /** Placeholders as holes, literal text (and any region still pending) as
      plain text. */
  function ToSegs(xs: seq<Part>): (gs: seq<Seg>)
    ensures |gs| == |xs|
    ensures forall k :: 0 <= k < |xs| ==> gs[k] == match xs[k] case Lit(t) => Plain(t) case Slot(j) => Hole(j) case Pend(c) => Plain(Open + c + Close)
  {
    seq(|xs|, k requires 0 <= k < |xs| => match xs[k] case Lit(t) => Plain(t) case Slot(j) => Hole(j) case Pend(c) => Plain(Open + c + Close))
  }

  lemma {:induction false} SegsFlat(stamp: nat, xs: seq<Part>)
    ensures FlatSegs(stamp, ToSegs(xs)) == FlatParts(stamp, xs)
    decreases |xs|
  {
    if |xs| > 0 {
      assert ToSegs(xs)[1..] == ToSegs(xs[1..]);
      SegsFlat(stamp, xs[1..]);
    }
  }

  function Content(p: Piece): string
  {
    match p case Text(t) => t case Block(c) => c
  }

  lemma {:induction false} AllPlainAt(ps: seq<Piece>, k: nat)
    requires k < |ps|
    ensures AllPlain(ps)[k] == Plain(Content(ps[k]))
    decreases k
  {
    if k > 0 {
      assert AllPlain(ps)[1..] == AllPlain(ps[1..]);
      AllPlainAt(ps[1..], k - 1);
    }
  }

  /** Holes numbered from `n` on still wait for their region's text; every
      other segment already holds its piece's content. */
  predicate Filling(gs: seq<Seg>, ps: seq<Piece>, all: seq<string>, n: nat)
  {
    |gs| == |ps| && forall k :: 0 <= k < |ps| ==>
      gs[k] == Plain(Content(ps[k])) || (gs[k].Hole? && n <= gs[k].id < |all| && ps[k] == Block(all[gs[k].id]))
  }

  lemma {:induction false} FillAllDone(gs: seq<Seg>, ps: seq<Piece>, all: seq<string>, n: nat)
    requires n <= |all| && Filling(gs, ps, all, n)
    ensures FillAll(gs, Indexed(all, n)) == AllPlain(ps)
    decreases |all| - n
  {
    var st := Indexed(all, n);
    if n == |all| {
      forall k | 0 <= k < |ps| ensures gs[k] == AllPlain(ps)[k] {
        AllPlainAt(ps, k);
      }
    } else {
      assert st[0] == (n, all[n]);
      assert st[1..] == Indexed(all, n + 1);
      FillAllDone(Fill(gs, n, all[n]), ps, all, n + 1);
    }
  }

  /** The template once every region has been marked. */
  function Marked(s: string): seq<Part>
  {
    MarkFrom(Lift(Scan(s)), Inners(Scan(s)), 0)
  }

  lemma InnersClean(s: string)
    requires NoAt(s) && NoNestedOpen(s)
    ensures forall m :: 0 <= m < |Inners(Scan(s))| ==> Clean(Inners(Scan(s))[m]) && NoAt(Inners(Scan(s))[m])
  {
    var ps := Scan(s);
    ScanShape(s);
    FlattenNoAt(ps);
    assert forall k :: 0 <= k < |ps| ==> ps[k].Block? ==> NoAt(ps[k].inner);
    InnersHold(ps, c => Clean(c) && NoAt(c));
  }

  /** The source's stash of the template is the marked template, with the
      store numbering the regions from 0. */
  lemma StashOfScan(s: string, stamp: nat)
    requires NoAt(s) && NoNestedOpen(s)
    ensures StashAsWritten(s, Inners(Scan(s)), stamp, 0)
         == (FlatSegs(stamp, ToSegs(Marked(s))), Keyed(stamp, Indexed(Inners(Scan(s)), 0)))
  {
    var ps := Scan(s);
    var all := Inners(ps);
    LiftFlat(stamp, ps);
    LiftGood(s);
    InnersClean(s);
    assert all[0..] == all;
    StashFold(stamp, Lift(ps), all, 0);
    SegsFlat(stamp, Marked(s));
  }

  /** Every region of the marked template is the placeholder of a region with
      the same inner text, and its text has no `@`. */
  lemma MarkedFilling(s: string)
    requires NoAt(s)
    ensures Filling(ToSegs(Marked(s)), Scan(s), Inners(Scan(s)), 0)
    ensures SegsNoAt(ToSegs(Marked(s)))
  {
    var ps := Scan(s);
    var all := Inners(ps);
    FlattenNoAt(ps);
    MarkFromTracks(Lift(ps), ps, all, 0);
    assert all[..|all|] == all;
    forall k | 0 <= k < |ps| && ps[k].Block? ensures ps[k].inner in all {
      BlockInInners(ps, k);
    }
  }

  /** Source-stash round trip: for a template without `@` whose regions hold
      no opening tag, the source's stash followed by its restore gives the
      template with every region's tags removed and its inner text kept. */
  lemma AsWrittenRoundTrip(s: string, stamp: nat)
    requires NoAt(s) && NoNestedOpen(s)
    ensures RoundTripAsWritten(s, stamp) == Unwrap(Scan(s))
  {
    var ps := Scan(s);
    var all := Inners(ps);
    var gs := ToSegs(Marked(s));
    StashOfScan(s, stamp);
    MarkedFilling(s);
    InnersClean(s);
    RestoreFillsAll(stamp, gs, Indexed(all, 0));
    FillAllDone(gs, ps, all, 0);
    AllPlainText(stamp, ps);
  }
}

=== FILE: IgnoreBlocks.dfy ===
/**
 Ignore regions (`{IGNORE} ... {/IGNORE}`) of TemplateParser.php's `parse`.
 Before any markup is compiled, each region is swapped for a unique
 placeholder `{@IGNORE_BLOCK_<time>_<n>@}` and its inner text is stored; after
 compilation each placeholder is swapped back for the stored text, so the
 region comes out verbatim without its tags.

 The source swaps a region out with `str_replace` of the region's whole text
 over the whole template, which also rewrites an identical text inside a
 LATER region. `StashAsWritten` models that, and `Pipeline.Translate` uses it;
 `Stash` replaces each region at its own position only, the behaviour the
 placeholder comment at TemplateParser.php:206 describes, and is the
 corrected half of that discrepancy.
 */
module IgnoreBlocks {
  import opened Strings

  const Open := "{IGNORE}"
  const Close := "{/IGNORE}"

  /** The template text as the ignore pattern splits it: plain text, and
      regions given by their inner text. */
  datatype Piece = Text(text: string) | Block(inner: string)

  function Render(p: Piece): string
  {
    match p
    case Text(t) => t
    case Block(c) => Open + c + Close
  }

  function Flatten(ps: seq<Piece>): string
    decreases |ps|
  {
    if |ps| == 0 then "" else Render(ps[0]) + Flatten(ps[1..])
  }

  /** The text with every region's tags removed and its inner text kept. */
  function Unwrap(ps: seq<Piece>): string
    decreases |ps|
  {
    if |ps| == 0 then ""
    else (match ps[0] case Text(t) => t case Block(c) => c) + Unwrap(ps[1..])
  }

  /** The inner texts of the regions, in order. */
  function Inners(ps: seq<Piece>): seq<string>
    decreases |ps|
  {
    if |ps| == 0 then []
    else (match ps[0] case Text(_) => [] case Block(c) => [c]) + Inners(ps[1..])
  }

  /** `preg_match_all` of `\{IGNORE\}((?:.|[\r\n])*?)\{/IGNORE\}`: the
      leftmost opening tag, up to the first closing tag after it, then the
      same again on the rest. With no closing tag after the first opening
      tag there is no match at all. Splitting loses nothing. */
  function Scan(s: string): (ps: seq<Piece>)
    ensures Flatten(ps) == s
    decreases |s|
  {
    var i := |BeforeFirst(s, Open)|;
    if i == |s| then [Text(s)]
    else
      var after := s[i + |Open|..];
      var j := |BeforeFirst(after, Close)|;
      if j == |after| then [Text(s)]
      else
        var rest := after[j + |Close|..];
        ScanStep(s, i, after, j, rest);
        FlattenBlock(s[..i], after[..j], Scan(rest));
        [Text(s[..i]), Block(after[..j])] + Scan(rest)
  }

  lemma ScanStep(s: string, i: nat, after: string, j: nat, rest: string)
    requires i + |Open| <= |s| && s[i..i + |Open|] == Open && after == s[i + |Open|..]
    requires j + |Close| <= |after| && after[j..j + |Close|] == Close && rest == after[j + |Close|..]
    ensures s == s[..i] + Open + after[..j] + Close + rest
  {
    assert s == s[..i] + s[i..i + |Open|] + after;
    assert after == after[..j] + after[j..j + |Close|] + rest;
  }

  lemma FlattenCons(p: Piece, ps: seq<Piece>)
    ensures Flatten([p] + ps) == Render(p) + Flatten(ps)
  {
    assert ([p] + ps)[1..] == ps;
  }

  lemma FlattenBlock(t: string, c: string, ps: seq<Piece>)
    ensures Flatten([Text(t), Block(c)] + ps) == t + Open + c + Close + Flatten(ps)
  {
    assert [Text(t), Block(c)] + ps == [Text(t)] + ([Block(c)] + ps);
    FlattenCons(Text(t), [Block(c)] + ps);
    FlattenCons(Block(c), ps);
  }

  // ---------------------------------------------------------------------
  // The shape of a scan
  // ---------------------------------------------------------------------

  predicate NoOpen(t: string)
  {
    forall k: nat :: k < |t| ==> !OccursAt(t, Open, k)
  }

  predicate NoClose(t: string)
  {
    forall k: nat :: k < |t| ==> !OccursAt(t, Close, k)
  }

  /** No opening tag in `t` has a closing tag somewhere after it: the text
      the pattern no longer matches. */
  predicate NoRegion(t: string)
  {
    forall k: nat, m: nat :: k + |Open| <= m < |t| && OccursAt(t, Open, k) ==> !OccursAt(t, Close, m)
  }

  /** Text and regions alternate, starting and ending with text; text before
      a region holds no opening tag; a region's inner text holds no closing
      tag; and the trailing text holds no complete region. */
  predicate Shaped(ps: seq<Piece>)
  {
    && |ps| % 2 == 1
    && (forall k :: 0 <= k < |ps| ==> (ps[k].Text? <==> k % 2 == 0))
    && (forall k :: 0 <= k < |ps| - 1 ==> ps[k].Text? ==> NoOpen(ps[k].text))
    && (forall k :: 0 <= k < |ps| ==> ps[k].Block? ==> NoClose(ps[k].inner))
    && ps[|ps| - 1].Text? && NoRegion(ps[|ps| - 1].text)
  }

  /** The match is leftmost and lazy, so every scan has that shape. */
  lemma {:induction false} ScanShape(s: string)
    ensures Shaped(Scan(s))
    decreases |s|
  {
    var i := |BeforeFirst(s, Open)|;
    if i == |s| {
      NoOpenNoRegion(s);
    } else {
      var after := s[i + |Open|..];
      var j := |BeforeFirst(after, Close)|;
      if j == |after| {
        UnclosedNoRegion(s, i);
      } else {
        var rest := after[j + |Close|..];
        assert Scan(s) == [Text(s[..i]), Block(after[..j])] + Scan(rest);
        ScanShape(rest);
        PrefixNoMatch(s, Open, i);
        PrefixNoMatch(after, Close, j);
        ShapedCons(s[..i], after[..j], Scan(rest));
      }
    }
  }

  lemma UnclosedNoRegion(s: string, i: nat)
    requires i < |s| && i == |BeforeFirst(s, Open)|
    requires var after := s[i + |Open|..]; |BeforeFirst(after, Close)| == |after|
    ensures NoRegion(s)
  {
    var after := s[i + |Open|..];
    forall k: nat, m: nat | k + |Open| <= m < |s| && OccursAt(s, Open, k)
      ensures !OccursAt(s, Close, m)
    {
      assert i <= k;
      if m + |Close| <= |s| {
        assert s[m..m + |Close|] == after[m - i - |Open|..m - i - |Open| + |Close|];
        assert !OccursAt(after, Close, m - i - |Open|);
      }
    }
  }

  lemma ShapedCons(t: string, c: string, ps: seq<Piece>)
    requires NoOpen(t) && NoClose(c) && Shaped(ps)
    ensures Shaped([Text(t), Block(c)] + ps)
  {
    var qs := [Text(t), Block(c)] + ps;
    assert forall k :: 2 <= k < |qs| ==> qs[k] == ps[k - 2];
  }

  lemma NoOpenNoRegion(t: string)
    requires NoOpen(t)
    ensures NoRegion(t)
  {
  }

  /** A prefix before the first occurrence holds no occurrence itself. */
  lemma PrefixNoMatch(s: string, f: string, i: nat)
    requires i <= |s| && forall k: nat :: k < i ==> !OccursAt(s, f, k)
    ensures forall k: nat :: k < i ==> !OccursAt(s[..i], f, k)
  {
    forall k: nat | k < i
      ensures !OccursAt(s[..i], f, k)
    {
      assert !OccursAt(s, f, k);
      if k + |f| <= i {
        assert s[..i][k..k + |f|] == s[k..k + |f|];
      }
    }
  }

  // ---------------------------------------------------------------------
  // Placeholders
  // ---------------------------------------------------------------------

  function Prefix(stamp: nat): string
  {
    "{@IGNORE_BLOCK_" + NatToString(stamp) + "_"
  }

  /** `'{@' . 'IGNORE_BLOCK_' . time() . '_' . $i . '@}'` */
  function Placeholder(stamp: nat, i: nat): (p: string)
    ensures |p| >= 2 && p[0] == '{' && p[1] == '@'
  {
    Prefix(stamp) + NatToString(i) + "@}"
  }

  /** Apart from its first character a placeholder holds no `{`. */
  lemma PlaceholderBraces(stamp: nat, i: nat)
    ensures forall k :: 1 <= k < |Placeholder(stamp, i)| ==> Placeholder(stamp, i)[k] != '{'
  {
    var d, e := NatToString(stamp), NatToString(i);
    var p := Placeholder(stamp, i);
    assert p == "{@IGNORE_BLOCK_" + d + "_" + e + "@}";
    forall k | 1 <= k < |p| ensures p[k] != '{' {
      if k < 15 {
        assert p[k] == "{@IGNORE_BLOCK_"[k];
      } else if k < 15 + |d| {
        assert p[k] == d[k - 15];
      } else if k == 15 + |d| {
        assert p[k] == '_';
      } else if k < 16 + |d| + |e| {
        assert p[k] == e[k - 16 - |d|];
      } else {
        assert p[k] == "@}"[k - 16 - |d| - |e|];
      }
    }
  }

  /** Two different digit strings followed by `@}` never start one another. */
  lemma {:induction false} DigitsNotPrefix(a: string, b: string, y: string)
    requires forall k :: 0 <= k < |a| ==> IsDigit(a[k])
    requires forall k :: 0 <= k < |b| ==> IsDigit(b[k])
    requires |a| + 2 <= |b| + 2 + |y| && (b + "@}" + y)[..|a| + 2] == a + "@}"
    ensures a == b
  {
    var s := b + "@}" + y;
    var m := if |a| < |b| then |a| else |b|;
    assert s[m] == (a + "@}")[m];
    if |a| == |b| {
      assert a == (a + "@}")[..|a|] == s[..|a|] == b;
    }
  }

  /** A placeholder occurs inside another placeholder's text only where the
      two are the same placeholder. */
  lemma PlaceholderNotInOther(stamp: nat, m: nat, j: nat, y: string)
    requires m != j
    ensures forall k: nat :: k < |Placeholder(stamp, m)| ==> !OccursAt(Placeholder(stamp, m) + y, Placeholder(stamp, j), k)
  {
    var pm, pj := Placeholder(stamp, m), Placeholder(stamp, j);
    var s := pm + y;
    PlaceholderBraces(stamp, m);
    forall k: nat | k < |pm| ensures !OccursAt(s, pj, k) {
      if k == 0 {
        PlaceholderNotAtStart(stamp, m, j, y);
      } else if k + |pj| <= |s| {
        assert s[k..k + |pj|][0] == s[k] == pm[k] != '{';
      }
    }
  }

  /** Two placeholders with the same stamp differ in their numbers, so one
      never starts the other. */
  lemma PlaceholderNotAtStart(stamp: nat, m: nat, j: nat, y: string)
    requires m != j
    ensures !OccursAt(Placeholder(stamp, m) + y, Placeholder(stamp, j), 0)
  {
    var s, pj := Placeholder(stamp, m) + y, Placeholder(stamp, j);
    if OccursAt(s, pj, 0) {
      var pre := Prefix(stamp);
      var dm, dj := NatToString(m), NatToString(j);
      assert s == pre + (dm + "@}" + y);
      assert pj == pre + (dj + "@}");
      assert (dm + "@}" + y)[..|dj| + 2] == s[|pre|..|pre| + |dj| + 2] == dj + "@}";
      DigitsNotPrefix(dj, dm, y);
      NatToStringInjective(m, j);
    }
  }

  // ---------------------------------------------------------------------
  // The stash and restore as the source writes them
  // ---------------------------------------------------------------------

  /** Step 1 of `parse`: for region `i` (inner text `inners[i]`), replace
      every occurrence of the region's full text in the WHOLE template by
      placeholder `i`, and store the inner text under that placeholder. */
  function StashAsWritten(content: string, inners: seq<string>, stamp: nat, i: nat): (r: (string, seq<(string, string)>))
    ensures |r.1| == |inners|
    ensures forall k :: 0 <= k < |inners| ==> r.1[k] == (Placeholder(stamp, i + k), inners[k])
    ensures |inners| == 0 ==> r.0 == content
    decreases |inners|
  {
    if |inners| == 0 then (content, [])
    else
      var p := Placeholder(stamp, i);
      var r := StashAsWritten(Replace(content, Open + inners[0] + Close, p), inners[1..], stamp, i + 1);
      (r.0, [(p, inners[0])] + r.1)
  }

  /** Step 6 of `parse`: replace each stored placeholder by its text, in the
      order the regions were stored. */
  function Restore(content: string, store: seq<(string, string)>): string
    decreases |store|
  {
    if |store| == 0 then content else Restore(Replace(content, store[0].0, store[0].1), store[1..])
  }

  /** Stash then restore as the source does, with no stage in between. */
  function RoundTripAsWritten(s: string, stamp: nat): string
  {
    var r := StashAsWritten(s, Inners(Scan(s)), stamp, 0);
    Restore(r.0, r.1)
  }

  // ---------------------------------------------------------------------
  // The positional stash
  // ---------------------------------------------------------------------

  /** The stashed template: plain text, and holes that stand for placeholder `id`. */
  datatype Seg = Plain(text: string) | Hole(id: nat)

  function SegText(stamp: nat, g: Seg): string
  {
    match g
    case Plain(t) => t
    case Hole(j) => Placeholder(stamp, j)
  }

  function FlatSegs(stamp: nat, gs: seq<Seg>): string
    decreases |gs|
  {
    if |gs| == 0 then "" else SegText(stamp, gs[0]) + FlatSegs(stamp, gs[1..])
  }

  /** Each region, in order, becomes the hole numbered from `next`. */
  function Stash(ps: seq<Piece>, next: nat): seq<Seg>
    decreases |ps|
  {
    if |ps| == 0 then []
    else match ps[0]
      case Text(t) => [Plain(t)] + Stash(ps[1..], next)
      case Block(_) => [Hole(next)] + Stash(ps[1..], next + 1)
  }

  /** The inner text of each region under its hole number. */
  function Storage(ps: seq<Piece>, next: nat): seq<(nat, string)>
    decreases |ps|
  {
    if |ps| == 0 then []
    else match ps[0]
      case Text(_) => Storage(ps[1..], next)
      case Block(c) => [(next, c)] + Storage(ps[1..], next + 1)
  }

  function Keyed(stamp: nat, st: seq<(nat, string)>): (r: seq<(string, string)>)
    ensures |r| == |st|
    ensures forall i :: 0 <= i < |st| ==> r[i] == (Placeholder(stamp, st[i].0), st[i].1)
  {
    seq(|st|, i requires 0 <= i < |st| => (Placeholder(stamp, st[i].0), st[i].1))
  }

  /** The stashed text and the store `parse` keeps, one placeholder per region. */
  function StashText(s: string, stamp: nat): string
  {
    FlatSegs(stamp, Stash(Scan(s), 0))
  }

  function StashStore(s: string, stamp: nat): seq<(string, string)>
  {
    Keyed(stamp, Storage(Scan(s), 0))
  }

  // ---------------------------------------------------------------------
  // Round trip of the positional stash
  // ---------------------------------------------------------------------

  predicate NoAt(t: string) { '@' !in t }

  predicate SegsNoAt(gs: seq<Seg>)
  {
    forall i :: 0 <= i < |gs| ==> gs[i].Plain? ==> NoAt(gs[i].text)
  }

  predicate PiecesNoAt(ps: seq<Piece>)
  {
    forall i :: 0 <= i < |ps| ==> match ps[i] case Text(t) => NoAt(t) case Block(c) => NoAt(c)
  }

  lemma {:induction false} FlattenNoAt(ps: seq<Piece>)
    requires NoAt(Flatten(ps))
    ensures PiecesNoAt(ps)
    decreases |ps|
  {
    if |ps| > 0 {
      FlattenNoAt(ps[1..]);
      assert NoAt(Render(ps[0]));
      forall i | 0 <= i < |ps| ensures match ps[i] case Text(t) => NoAt(t) case Block(c) => NoAt(c) {
        if i > 0 {
          assert ps[i] == ps[1..][i - 1];
        }
      }
    }
  }

  /** Stashed text never begins with `@`. */
  lemma {:induction false} NoLeadingAt(stamp: nat, gs: seq<Seg>)
    requires SegsNoAt(gs)
    ensures |FlatSegs(stamp, gs)| == 0 || FlatSegs(stamp, gs)[0] != '@'
    decreases |gs|
  {
    if |gs| > 0 {
      NoLeadingAt(stamp, gs[1..]);
      var h := SegText(stamp, gs[0]);
      if |h| > 0 {
        assert FlatSegs(stamp, gs)[0] == h[0];
        if gs[0].Plain? {
          assert h[0] in gs[0].text;
        }
      }
    }
  }

  /** No placeholder starts inside `@`-free text that is followed by text
      not starting with `@`. */
  lemma PlainHasNoPlaceholder(x: string, y: string, f: string)
    requires NoAt(x) && (|y| == 0 || y[0] != '@')
    requires |f| >= 2 && f[1] == '@'
    ensures forall k: nat :: k < |x| ==> !OccursAt(x + y, f, k)
  {
    forall k: nat | k < |x| ensures !OccursAt(x + y, f, k) {
      if k + |f| <= |x + y| {
        assert (x + y)[k..k + |f|][1] == (x + y)[k + 1];
        if k + 1 < |x| {
          assert (x + y)[k + 1] == x[k + 1] != '@';
        } else {
          assert (x + y)[k + 1] == y[0] != '@';
        }
      }
    }
  }

  /** Replace hole `j` by `c`. */
  function Fill(gs: seq<Seg>, j: nat, c: string): (r: seq<Seg>)
    ensures |r| == |gs|
    ensures forall i :: 0 <= i < |gs| ==> r[i] == if gs[i] == Hole(j) then Plain(c) else gs[i]
  {
    seq(|gs|, i requires 0 <= i < |gs| => if gs[i] == Hole(j) then Plain(c) else gs[i])
  }

  /** Restoring one placeholder over the stashed text fills exactly its hole. */
  lemma {:induction false} ReplaceFillsHole(stamp: nat, gs: seq<Seg>, j: nat, c: string)
    requires SegsNoAt(gs)
    ensures Replace(FlatSegs(stamp, gs), Placeholder(stamp, j), c) == FlatSegs(stamp, Fill(gs, j, c))
    decreases |gs|
  {
    var f := Placeholder(stamp, j);
    if |gs| > 0 {
      var y := FlatSegs(stamp, gs[1..]);
      assert Fill(gs, j, c)[1..] == Fill(gs[1..], j, c);
      ReplaceFillsHole(stamp, gs[1..], j, c);
      match gs[0]
      case Plain(x) =>
        NoLeadingAt(stamp, gs[1..]);
        PlainHasNoPlaceholder(x, y, f);
        ReplaceSkip(x, y, f, c);
      case Hole(m) =>
        var pm := Placeholder(stamp, m);
        if m == j {
          assert (pm + y)[..|f|] == f;
          assert (pm + y)[|f|..] == y;
        } else {
          PlaceholderNotInOther(stamp, m, j, y);
          ReplaceSkip(pm, y, f, c);
        }
    }
  }

  /** Fill every stored hole, in store order. */
  function FillAll(gs: seq<Seg>, st: seq<(nat, string)>): seq<Seg>
    decreases |st|
  {
    if |st| == 0 then gs else FillAll(Fill(gs, st[0].0, st[0].1), st[1..])
  }

  predicate StoreNoAt(st: seq<(nat, string)>)
  {
    forall i :: 0 <= i < |st| ==> NoAt(st[i].1)
  }

  /** Restoring the whole store is filling every hole. */
  lemma {:induction false} RestoreFillsAll(stamp: nat, gs: seq<Seg>, st: seq<(nat, string)>)
    requires SegsNoAt(gs) && StoreNoAt(st)
    ensures Restore(FlatSegs(stamp, gs), Keyed(stamp, st)) == FlatSegs(stamp, FillAll(gs, st))
    decreases |st|
  {
    if |st| > 0 {
      var ks := Keyed(stamp, st);
      ReplaceFillsHole(stamp, gs, st[0].0, st[0].1);
      assert ks[1..] == Keyed(stamp, st[1..]);
      RestoreFillsAll(stamp, Fill(gs, st[0].0, st[0].1), st[1..]);
    }
  }

  function AllPlain(ps: seq<Piece>): (r: seq<Seg>)
    ensures |r| == |ps|
    decreases |ps|
  {
    if |ps| == 0 then []
    else [match ps[0] case Text(t) => Plain(t) case Block(c) => Plain(c)] + AllPlain(ps[1..])
  }

  lemma {:induction false} FillAllConsPlain(g: Seg, gs: seq<Seg>, st: seq<(nat, string)>)
    requires g.Plain?
    ensures FillAll([g] + gs, st) == [g] + FillAll(gs, st)
    decreases |st|
  {
    if |st| > 0 {
      assert Fill([g] + gs, st[0].0, st[0].1) == [g] + Fill(gs, st[0].0, st[0].1);
      FillAllConsPlain(g, Fill(gs, st[0].0, st[0].1), st[1..]);
    }
  }

  lemma {:induction false} StashHolesFrom(ps: seq<Piece>, next: nat)
    ensures forall i :: 0 <= i < |Stash(ps, next)| ==> Stash(ps, next)[i].Hole? ==> Stash(ps, next)[i].id >= next
    decreases |ps|
  {
    if |ps| > 0 {
      match ps[0]
      case Text(_) => StashHolesFrom(ps[1..], next);
      case Block(_) => StashHolesFrom(ps[1..], next + 1);
    }
  }

  /** Filling the holes a stash made with the store it made brings back every
      region's inner text. */
  lemma {:induction false} FillStash(ps: seq<Piece>, next: nat)
    ensures FillAll(Stash(ps, next), Storage(ps, next)) == AllPlain(ps)
    decreases |ps|
  {
    if |ps| > 0 {
      match ps[0]
      case Text(t) =>
        FillAllConsPlain(Plain(t), Stash(ps[1..], next), Storage(ps[1..], next));
        FillStash(ps[1..], next);
      case Block(c) =>
        var rest := Stash(ps[1..], next + 1);
        StashHolesFrom(ps[1..], next + 1);
        assert Fill([Hole(next)] + rest, next, c) == [Plain(c)] + rest;
        FillAllConsPlain(Plain(c), rest, Storage(ps[1..], next + 1));
        FillStash(ps[1..], next + 1);
    }
  }

  lemma {:induction false} AllPlainText(stamp: nat, ps: seq<Piece>)
    ensures FlatSegs(stamp, AllPlain(ps)) == Unwrap(ps)
    decreases |ps|
  {
    if |ps| > 0 {
      assert AllPlain(ps)[1..] == AllPlain(ps[1..]);
      AllPlainText(stamp, ps[1..]);
    }
  }

  lemma {:induction false} StashNoAt(ps: seq<Piece>, next: nat)
    requires PiecesNoAt(ps)
    ensures SegsNoAt(Stash(ps, next)) && StoreNoAt(Storage(ps, next))
    decreases |ps|
  {
    if |ps| > 0 {
      assert PiecesNoAt(ps[1..]) by {
        forall i | 0 <= i < |ps[1..]| ensures match ps[1..][i] case Text(t) => NoAt(t) case Block(c) => NoAt(c) {
          assert ps[1..][i] == ps[i + 1];
        }
      }
      match ps[0]
      case Text(_) => StashNoAt(ps[1..], next);
      case Block(_) => StashNoAt(ps[1..], next + 1);
    }
  }

  /** Ignore round trip: for a template without `@`, restoring the stash
      gives the template with every region's tags removed and its inner
      text kept verbatim. */
  lemma IgnoreRoundTrip(s: string, stamp: nat)
    requires NoAt(s)
    ensures Restore(StashText(s, stamp), StashStore(s, stamp)) == Unwrap(Scan(s))
  {
    var ps := Scan(s);
    FlattenNoAt(ps);
    StashNoAt(ps, 0);
    RestoreFillsAll(stamp, Stash(ps, 0), Storage(ps, 0));
    FillStash(ps, 0);
    AllPlainText(stamp, ps);
  }

  // ---------------------------------------------------------------------
  // A template the source's stash gets wrong
  // ---------------------------------------------------------------------

  /** The first occurrence of `sep` is the one at `k` when none comes earlier. */
  lemma BeforeFirstAt(s: string, sep: string, k: nat)
    requires |sep| > 0 && OccursAt(s, sep, k)
    requires forall j: nat :: j < k ==> !OccursAt(s, sep, j)
    ensures |BeforeFirst(s, sep)| == k
  {
  }

  lemma OpenTail()
    ensures forall k :: 1 <= k < |Open| ==> Open[k] != '{'
    ensures Open[1] == 'I' && '@' !in Open && '@' !in Close
  {
    assert Open == "{" + "IGNORE}";
    assert '{' !in "IGNORE}";
  }

  /** A character that neither opens a tag nor appears in a placeholder's
      marker. */
  predicate Ordinary(ch: char)
  {
    ch != '{' && ch != '@'
  }

  /** The inner text of a region that itself holds an opening tag and ends
      with the first region's inner text: `a{IGNORE}x`. */
  function Nested(x: char, a: char): string
  {
    [a] + Open + [x]
  }

  /** `{IGNORE}x{/IGNORE}{IGNORE}a{IGNORE}x{/IGNORE}`. */
  function Sample(x: char, a: char): string
  {
    Open + [x] + Close + (Open + Nested(x, a) + Close)
  }

  /** One unfolding of `Scan` on a text that opens with a region whose
      inner text is `j` characters long. */
  lemma ScanAt(s: string, after: string, j: nat)
    requires |Open| <= |s| && |BeforeFirst(s, Open)| == 0 && after == s[|Open|..]
    requires j + |Close| <= |after| && |BeforeFirst(after, Close)| == j
    ensures Scan(s) == [Text(""), Block(after[..j])] + Scan(after[j + |Close|..])
  {
    assert s[..0] == "";
  }

  lemma FlatSegs3(stamp: nat, a: Seg, b: Seg, c: Seg)
    ensures FlatSegs(stamp, [a, b, c]) == SegText(stamp, a) + SegText(stamp, b) + SegText(stamp, c)
  {
    var gs := [a, b, c];
    assert gs[1..] == [b, c] && gs[1..][1..] == [c] && gs[1..][1..][1..] == [];
    assert FlatSegs(stamp, [c]) == SegText(stamp, c) + FlatSegs(stamp, []);
    assert FlatSegs(stamp, [b, c]) == SegText(stamp, b) + FlatSegs(stamp, [c]);
  }

  lemma ScanSecondRegion(x: char, a: char)
    requires Ordinary(x) && Ordinary(a)
    ensures Scan(Open + Nested(x, a) + Close) == [Text(""), Block(Nested(x, a)), Text("")]
  {
    NestedThenClose(x, a);
    RegionCloses(Nested(x, a));
    ScanSingleRegion(Nested(x, a));
  }

  /** A text that is exactly one region, with no closing tag inside it. */
  lemma ScanSingleRegion(c: string)
    requires |BeforeFirst(c + Close, Close)| == |c|
    ensures Scan(Open + c + Close) == [Text(""), Block(c), Text("")]
  {
    var b := Open + c + Close;
    RegionOpens(c);
    assert (c + Close)[..|c|] == c && (c + Close)[|c| + |Close|..] == "";
    var rest := b[|Open|..][|c| + |Close|..];
    assert rest == "";
    ScanAt(b, b[|Open|..], |c|);
    assert Scan(rest) == [Text("")];
  }

  lemma RegionOpens(c: string)
    ensures |BeforeFirst(Open + c + Close, Open)| == 0
    ensures (Open + c + Close)[|Open|..] == c + Close
  {
    var b := Open + (c + Close);
    assert Open + c + Close == b;
    assert b[..|Open|] == Open;
    assert OccursAt(b, Open, 0);
  }

  lemma RegionCloses(c: string)
    requires forall j: nat :: j < |c| ==> !OccursAt(c + Close, Close, j)
    ensures |BeforeFirst(c + Close, Close)| == |c|
    ensures (c + Close)[..|c|] == c && (c + Close)[|c| + |Close|..] == ""
  {
    var after := c + Close;
    assert after[|c|..|c| + |Close|] == Close;
    BeforeFirstAt(after, Close, |c|);
  }

  /** The first closing tag after `Nested` is the one right after it. */
  lemma NestedThenClose(x: char, a: char)
    requires Ordinary(x) && Ordinary(a)
    ensures OccursAt(Nested(x, a) + Close, Close, |Nested(x, a)|)
    ensures forall j: nat :: j < |Nested(x, a)| ==> !OccursAt(Nested(x, a) + Close, Close, j)
  {
    var n := Nested(x, a);
    var after := n + Close;
    OpenTail();
    assert after[|n|..] == Close;
    forall j: nat | j < |n| ensures !OccursAt(after, Close, j) {
      if j + |Close| <= |after| {
        var w := after[j..j + |Close|];
        if j == 0 {
          assert w[0] == a;
        } else if j == 1 {
          assert w[1] == after[2] == Open[1];
        } else if j < 9 {
          assert w[0] == Open[j - 1];
        } else {
          assert w[0] == x;
        }
      }
    }
  }

  /** A one-character region in front of any text is split off whole. */
  lemma ScanLeadingRegion(x: char, r: string)
    requires Ordinary(x)
    ensures Scan(Open + [x] + Close + r) == [Text(""), Block([x])] + Scan(r)
  {
    var s := Open + [x] + Close + r;
    assert s[..|Open|] == Open;
    assert BeforeFirst(s, Open) == "";
    var after := s[|Open|..];
    assert after == [x] + Close + r;
    assert after[1..1 + |Close|] == Close;
    assert after[0..|Close|][0] == x;
    BeforeFirstAt(after, Close, 1);
    assert after[..1] == [x];
    assert after[1 + |Close|..] == r;
    ScanAt(s, after, 1);
  }

  lemma ScanSample(x: char, a: char)
    requires Ordinary(x) && Ordinary(a)
    ensures Scan(Sample(x, a)) == [Text(""), Block([x]), Text(""), Block(Nested(x, a)), Text("")]
  {
    var b2 := Open + Nested(x, a) + Close;
    ScanLeadingRegion(x, b2);
    ScanSecondRegion(x, a);
    Cons2(Text(""), Block([x]), Scan(b2));
  }

  lemma Cons2(p: Piece, q: Piece, ps: seq<Piece>)
    requires |ps| == 3
    ensures [p, q] + ps == [p, q, ps[0], ps[1], ps[2]]
  {
  }

  /** After the first region is swapped out, the template reads
      placeholder 0, `{IGNORE}a`, placeholder 0: the second region's copy of
      `{IGNORE}x{/IGNORE}` went with it. */
  lemma FirstSwap(x: char, a: char, stamp: nat)
    requires Ordinary(x) && Ordinary(a) && x != a
    ensures Replace(Sample(x, a), Open + [x] + Close, Placeholder(stamp, 0))
         == Placeholder(stamp, 0) + (Open + [a]) + Placeholder(stamp, 0)
  {
    var b1, p0 := Open + [x] + Close, Placeholder(stamp, 0);
    var m := Open + [a];
    var b2 := m + b1;
    assert Open + Nested(x, a) + Close == b2;
    assert Sample(x, a) == b1 + b2;
    assert (b1 + b2)[..|b1|] == b1 && (b1 + b2)[|b1|..] == b2;
    OpenTail();
    forall k: nat | k < |m| ensures !OccursAt(b2, b1, k) {
      if k + |b1| <= |b2| {
        if k == 0 {
          assert b2[k..k + |b1|][8] == a && b1[8] == x;
        } else {
          assert b2[k..k + |b1|][0] == b2[k];
          if k < 8 {
            assert b2[k] == Open[k];
          } else {
            assert b2[k] == a;
          }
        }
      }
    }
    ReplaceSkip(m, b1, b1, p0);
    assert b1[..|b1|] == b1 && b1[|b1|..] == "";
    assert Replace(b1, b1, p0) == p0 + "";
  }

  /** A text that starts with `{` and then not `@` cannot start inside a
      placeholder. */
  lemma NoMatchInPlaceholder(t: string, off: nat, stamp: nat, pat: string, k: nat)
    requires off + |Placeholder(stamp, 0)| <= |t| && t[off..off + |Placeholder(stamp, 0)|] == Placeholder(stamp, 0)
    requires |pat| >= 2 && pat[0] == '{' && pat[1] != '@'
    requires off <= k < off + |Placeholder(stamp, 0)|
    ensures !OccursAt(t, pat, k)
  {
    var p := Placeholder(stamp, 0);
    PlaceholderBraces(stamp, 0);
    if k + |pat| <= |t| {
      assert t[k..k + |pat|][0] == t[k] == p[k - off];
      if k == off {
        assert t[k..k + |pat|][1] == t[k + 1] == p[1];
      }
    }
  }

  /** The second region's text no longer occurs, so the second swap
      changes nothing. */
  lemma SecondSwapMisses(x: char, a: char, stamp: nat)
    requires Ordinary(x) && Ordinary(a)
    ensures Replace(Placeholder(stamp, 0) + (Open + [a]) + Placeholder(stamp, 0), Open + Nested(x, a) + Close, Placeholder(stamp, 1))
         == Placeholder(stamp, 0) + (Open + [a]) + Placeholder(stamp, 0)
  {
    var p0, m, b2 := Placeholder(stamp, 0), Open + [a], Open + Nested(x, a) + Close;
    var t := p0 + m + p0;
    var n := |p0|;
    OpenTail();
    assert b2[0] == '{' && b2[1] == 'I' && b2[10] == 'I';
    assert t[..n] == p0 && t[n + 9..] == p0 && t[n..n + 9] == m;
    forall k: nat | k < |t| ensures !OccursAt(t, b2, k) {
      if k < n {
        NoMatchInPlaceholder(t, 0, stamp, b2, k);
      } else if k >= n + 9 {
        NoMatchInPlaceholder(t, n + 9, stamp, b2, k);
      } else {
        NoMatchAfterOpen(p0, m, t, b2, a, k);
      }
    }
    ReplaceAbsent(t, b2, Placeholder(stamp, 1));
  }

  /** Inside `{IGNORE}a` the second region's text cannot start: only the
      opening brace could, and two characters after the `a` there comes a
      placeholder's `@`, where the region has the `I` of its second tag. */
  lemma NoMatchAfterOpen(p0: string, m: string, t: string, b2: string, a: char, k: nat)
    requires Ordinary(a) && m == Open + [a] && t == p0 + m + p0
    requires |p0| >= 2 && p0[1] == '@'
    requires |b2| > 10 && b2[0] == '{' && b2[10] == 'I'
    requires |p0| <= k < |p0| + 9
    ensures !OccursAt(t, b2, k)
  {
    var n := |p0|;
    OpenTail();
    if k + |b2| <= |t| {
      var w := t[k..k + |b2|];
      if k == n {
        assert w[10] == t[n + 10] == p0[1];
      } else {
        assert w[0] == t[k] == m[k - n];
      }
    }
  }

  lemma InnersSample(x: char, a: char)
    requires Ordinary(x) && Ordinary(a)
    ensures Inners(Scan(Sample(x, a))) == [[x], Nested(x, a)]
  {
    ScanSample(x, a);
    TwoRegions("", [x], "", Nested(x, a), "");
  }

  /** Unwrapping and collecting the inner texts of two regions between
      three stretches of plain text. */
  lemma TwoRegions(t0: string, c1: string, t2: string, c3: string, t4: string)
    ensures Inners([Text(t0), Block(c1), Text(t2), Block(c3), Text(t4)]) == [c1, c3]
    ensures Unwrap([Text(t0), Block(c1), Text(t2), Block(c3), Text(t4)]) == t0 + c1 + t2 + c3 + t4
  {
    var ps := [Text(t0), Block(c1), Text(t2), Block(c3), Text(t4)];
    assert ps[1..] == [Block(c1), Text(t2), Block(c3), Text(t4)];
    assert ps[1..][1..] == [Text(t2), Block(c3), Text(t4)];
    assert ps[1..][1..][1..] == [Block(c3), Text(t4)];
    assert ps[1..][1..][1..][1..] == [Text(t4)];
    assert [Text(t4)][1..] == [];
    assert Inners([Text(t4)]) == [] + Inners([]);
    assert Inners([Block(c3), Text(t4)]) == [c3] + Inners([Text(t4)]);
    assert Inners([Text(t2), Block(c3), Text(t4)]) == [] + Inners([Block(c3), Text(t4)]);
    assert Inners([Block(c1), Text(t2), Block(c3), Text(t4)]) == [c1] + Inners([Text(t2), Block(c3), Text(t4)]);
    assert Unwrap([Text(t4)]) == t4 + Unwrap([]);
    assert Unwrap([Block(c3), Text(t4)]) == c3 + Unwrap([Text(t4)]);
    assert Unwrap([Text(t2), Block(c3), Text(t4)]) == t2 + Unwrap([Block(c3), Text(t4)]);
    assert Unwrap([Block(c1), Text(t2), Block(c3), Text(t4)]) == c1 + Unwrap([Text(t2), Block(c3), Text(t4)]);
  }

  lemma StashSample(x: char, a: char, stamp: nat)
    requires Ordinary(x) && Ordinary(a) && x != a
    ensures StashAsWritten(Sample(x, a), [[x], Nested(x, a)], stamp, 0)
         == (Placeholder(stamp, 0) + (Open + [a]) + Placeholder(stamp, 0),
             [(Placeholder(stamp, 0), [x]), (Placeholder(stamp, 1), Nested(x, a))])
  {
    var p0, p1 := Placeholder(stamp, 0), Placeholder(stamp, 1);
    var t1 := p0 + (Open + [a]) + p0;
    var n := Nested(x, a);
    FirstSwap(x, a, stamp);
    SecondSwapMisses(x, a, stamp);
    var last := StashAsWritten(t1, [n], stamp, 1);
    assert [n][1..] == [];
    assert StashAsWritten(Replace(t1, Open + n + Close, p1), [], stamp, 2) == (t1, []);
    assert [(p1, n)] + [] == [(p1, n)];
    assert last == (t1, [(p1, n)]);
    assert [[x], n][1..] == [n];
    assert [(p0, [x])] + [(p1, n)] == [(p0, [x]), (p1, n)];
  }

  lemma RestoreSample(x: char, a: char, stamp: nat)
    requires Ordinary(x) && Ordinary(a)
    ensures Restore(Placeholder(stamp, 0) + (Open + [a]) + Placeholder(stamp, 0),
                    [(Placeholder(stamp, 0), [x]), (Placeholder(stamp, 1), Nested(x, a))])
         == [x] + Open + [a, x]
  {
    OpenTail();
    var m := Open + [a];
    var gs := [Hole(0), Plain(m), Hole(0)];
    FlatSegs3(stamp, Hole(0), Plain(m), Hole(0));
    assert NoAt(m);
    ReplaceFillsHole(stamp, gs, 0, [x]);
    var fs := [Plain([x]), Plain(m), Plain([x])];
    assert Fill(gs, 0, [x]) == fs;
    var t2 := [x] + m + [x];
    FlatSegs3(stamp, Plain([x]), Plain(m), Plain([x]));
    assert NoAt(t2);
    assert FlatSegs(stamp, [Plain(t2)]) == t2;
    ReplaceFillsHole(stamp, [Plain(t2)], 1, Nested(x, a));
    assert Fill([Plain(t2)], 1, Nested(x, a)) == [Plain(t2)];
    var st := [(Placeholder(stamp, 0), [x]), (Placeholder(stamp, 1), Nested(x, a))];
    assert st[1..] == [(Placeholder(stamp, 1), Nested(x, a))] && st[1..][1..] == [];
    assert Restore(t2, st[1..]) == Restore(t2, []);
    assert t2 == [x] + Open + [a, x];
  }

  lemma UnwrapSample(x: char, a: char)
    requires Ordinary(x) && Ordinary(a)
    ensures Unwrap(Scan(Sample(x, a))) == [x] + Nested(x, a)
  {
    ScanSample(x, a);
    TwoRegions("", [x], "", Nested(x, a), "");
    DropEmpty("", [x], Nested(x, a));
  }

  lemma DropEmpty(e: string, c1: string, c3: string)
    requires e == []
    ensures e + c1 + e + c3 + e == c1 + c3
  {
  }

  lemma NestedAfter(x: char, a: char)
    ensures [x] + Nested(x, a) == [x, a] + Open + [x]
  {
    assert [x] + ([a] + Open + [x]) == [x, a] + Open + [x];
  }

  /** What the source's stash and restore make of `Sample`. */
  lemma RoundTripSample(x: char, a: char, stamp: nat)
    requires Ordinary(x) && Ordinary(a) && x != a
    ensures RoundTripAsWritten(Sample(x, a), stamp) == [x] + Open + [a, x]
  {
    var p0, p1 := Placeholder(stamp, 0), Placeholder(stamp, 1);
    var st := (p0 + (Open + [a]) + p0, [(p0, [x]), (p1, Nested(x, a))]);
    InnersSample(x, a);
    StashSample(x, a, stamp);
    RestoreSample(x, a, stamp);
    RoundTripFrom(Sample(x, a), stamp, [[x], Nested(x, a)], st, [x] + Open + [a, x]);
  }

  lemma RoundTripFrom(s: string, stamp: nat, ins: seq<string>, st: (string, seq<(string, string)>), out: string)
    requires Inners(Scan(s)) == ins && StashAsWritten(s, ins, stamp, 0) == st
    requires Restore(st.0, st.1) == out
    ensures RoundTripAsWritten(s, stamp) == out
  {
  }

  lemma DifferAtOne(x: char, a: char, u: string, v: string)
    requires Ordinary(a)
    requires u == [x, a] + Open + [x] && v == [x] + Open + [a, x]
    ensures u != v
  {
    assert u[1] == a && v[1] == '{';
  }

  /** The source's stash on `Sample` restores `x{IGNORE}ax`, while the
      template with its regions unwrapped reads `xa{IGNORE}x`: swapping out
      the first region also swapped out the copy of it inside the second, so
      the second region's text is never found and its placeholder is never
      used. */
  lemma AsWrittenMisplacesNestedRegion(x: char, a: char, stamp: nat)
    requires Ordinary(x) && Ordinary(a) && x != a
    ensures Unwrap(Scan(Sample(x, a))) == [x, a] + Open + [x]
    ensures RoundTripAsWritten(Sample(x, a), stamp) == [x] + Open + [a, x]
    ensures RoundTripAsWritten(Sample(x, a), stamp) != Unwrap(Scan(Sample(x, a)))
  {
    UnwrapSample(x, a);
    NestedAfter(x, a);
    RoundTripSample(x, a, stamp);
    DifferAtOne(x, a, Unwrap(Scan(Sample(x, a))), RoundTripAsWritten(Sample(x, a), stamp));
  }

  lemma SampleNoAt(x: char, a: char)
    requires Ordinary(x) && Ordinary(a)
    ensures NoAt(Sample(x, a))
  {
    OpenTail();
    assert Nested(x, a) == [a] + Open + [x];
  }

  /** With no `@` in the template, the positional stash restores exactly the
      unwrapped text, `xa{IGNORE}x` for `Sample`. */
  lemma PositionalKeepsNestedRegion(x: char, a: char, stamp: nat)
    requires Ordinary(x) && Ordinary(a)
    ensures NoAt(Sample(x, a))
    ensures Unwrap(Scan(Sample(x, a))) == [x, a] + Open + [x]
  {
    SampleNoAt(x, a);
    UnwrapSample(x, a);
    NestedAfter(x, a);
  }
}

=== FILE: Pipeline.dfy ===
/**
 The parse/compile state machine of TemplateParser.php and the cache
 freshness rule it consults.

 The file system and the clock are parameters: `Env` holds what `filemtime`,
 `file_exists`, `file_get_contents` and `time()` would report. The stages of
 `parse` that need a regular-expression engine (includes, output tokens,
 loops, conditions) are one parameter `middle`, and `eval` of the parsed PHP
 is one parameter `run`.
 */
module Pipeline {
  import opened Values
  import opened IgnoreBlocks
  import opened IgnoreAsWritten
  import opened TemplateState

  /** A cached parse on disk: its content and the time it was written. */
  datatype CacheFile = CacheFile(content: string, cachedTime: int)

  /** What the outside world reports during one call. */
  datatype Env = Env(file: Option<CacheFile>, lastModified: int, now: int, maxAge: int)

  /** Lines 128-140 of `cache`: a cache entry written no earlier than the
      template's last modification is always good; an older one is good
      while it is younger than the maximum age. */
  function Fresh(lastModified: int, cachedTime: int, now: int, maxAge: int): (b: bool)
    ensures b <==> lastModified <= cachedTime || now < cachedTime + maxAge
  {
    if lastModified > cachedTime then now - cachedTime < maxAge else true
  }

  /** An entry written after the last modification is served at any time. */
  lemma FreshWhenNewer(lastModified: int, cachedTime: int, now: int, maxAge: int)
    requires lastModified <= cachedTime
    ensures Fresh(lastModified, cachedTime, now, maxAge)
  {
  }

  /** A stale entry stops being served once it reaches the maximum age, and
      is never served with a maximum age of zero or less. */
  lemma StaleExpires(lastModified: int, cachedTime: int, now: int, maxAge: int)
    requires lastModified > cachedTime
    ensures Fresh(lastModified, cachedTime, now, maxAge) <==> now < cachedTime + maxAge
    ensures maxAge <= 0 && now >= cachedTime ==> !Fresh(lastModified, cachedTime, now, maxAge)
  {
  }

  /** Freshness only ever goes from served to not served as time passes,
      and a larger maximum age serves at least as much. */
  lemma FreshMonotone(lastModified: int, cachedTime: int, now: int, later: int, maxAge: int, larger: int)
    requires now <= later && maxAge <= larger
    ensures Fresh(lastModified, cachedTime, later, maxAge) ==> Fresh(lastModified, cachedTime, now, maxAge)
    ensures Fresh(lastModified, cachedTime, now, maxAge) ==> Fresh(lastModified, cachedTime, now, larger)
  {
  }

  /** How reading the cache for an unparsed template ends as the source is
      written: the entry is returned, there is none, or the call stops with
      PHP's error for `$this` outside an object. */
  datatype CacheRead = Served(content: string) | NoEntry | ThisOutsideObject

  /** `cache` is declared `static` yet its stale branch reads
      `$this->max_cache_age`, so an entry older than the template is never
      served: the read stops the call instead. */
  function CacheReadAsWritten(file: Option<CacheFile>, lastModified: int): (r: CacheRead)
    ensures r.NoEntry? <==> file.None?
    ensures r.Served? <==> file.Some? && lastModified <= file.value.cachedTime
    ensures r.Served? ==> r.content == file.value.content
  {
    match file
    case None => NoEntry
    case Some(f) => if lastModified > f.cachedTime then ThisOutsideObject else Served(f.content)
  }

  /** Where the two readings differ: a stale entry still younger than the
      maximum age is fresh by the rule the comments describe, yet as written
      the read fails. Every other entry is treated alike. */
  lemma StaleReadIsFatal(f: CacheFile, lastModified: int, now: int, maxAge: int)
    requires lastModified > f.cachedTime && now - f.cachedTime < maxAge
    ensures Fresh(lastModified, f.cachedTime, now, maxAge)
    ensures CacheReadAsWritten(Some(f), lastModified) == ThisOutsideObject
  {
  }

  lemma AsWrittenAgreesOtherwise(file: Option<CacheFile>, lastModified: int, now: int, maxAge: int)
    requires file.Some? ==> lastModified <= file.value.cachedTime
    ensures CacheReadAsWritten(file, lastModified) ==
              if file.Some? && Fresh(lastModified, file.value.cachedTime, now, maxAge)
              then Served(file.value.content) else NoEntry
  {
  }

  /** The outcome of one `cache` call: what it returns and what it writes. */
  datatype CacheOutcome = CacheOutcome(served: Option<string>, written: Option<string>)

  /** `cache`: a parsed template is written out and nothing is returned; an
      unparsed one is served the stored entry when there is one and it is
      fresh. */
  function Cache(t: Template, env: Env): (r: CacheOutcome)
    ensures t.parsed ==> r.served == None && r.written == Some(t.parsedContent)
    ensures !t.parsed ==> r.written == None
    ensures r.served.Some? <==>
              !t.parsed && env.file.Some? &&
              (env.lastModified <= env.file.value.cachedTime || env.now - env.file.value.cachedTime < env.maxAge)
    ensures r.served.Some? ==> r.served.value == env.file.value.content
  {
    if t.parsed then CacheOutcome(None, Some(t.parsedContent))
    else match env.file
      case None => CacheOutcome(None, None)
      case Some(f) =>
        if Fresh(env.lastModified, f.cachedTime, env.now, env.maxAge) then CacheOutcome(Some(f.content), None)
        else CacheOutcome(None, None)
  }

  /** PHP's truth value of a string: `""` and `"0"` are false. */
  predicate Truthy(s: string)
  {
    s != "" && s != "0"
  }

  /** The outcome of `parse`: the template after the call and what was
      written to the cache file. */
  datatype ParseOutcome = ParseOutcome(t: Template, written: Option<string>)

  /** The ignore stash as the source writes it, the middle stages and the
      restore, over the raw source; the placeholders are numbered with the
      clock's reading. */
  function Translate(source: string, stamp: nat, middle: string -> string): string
  {
    var stashed := StashAsWritten(source, Inners(Scan(source)), stamp, 0);
    Restore(middle(stashed.0), stashed.1)
  }

  /** `parse`: an already parsed template is left alone; a served cache entry
      that PHP reads as true becomes the parse; otherwise the source is
      translated, stored as the parse and written to the cache. */
  function Parse(t: Template, env: Env, middle: string -> string): (r: ParseOutcome)
    ensures t.parsed ==> r == ParseOutcome(t, None)
    ensures r.t.parsed
    ensures r.t.vars == t.vars && r.t.overwrite == t.overwrite && r.t.unparsed == t.unparsed
    ensures r.t.compiled == t.compiled && r.t.compiledContent == t.compiledContent
    ensures !t.parsed && Cache(t, env).served.Some? && Truthy(Cache(t, env).served.value) ==>
              r.written == None && r.t.parsedContent == Cache(t, env).served.value
    ensures r.written.Some? ==> r.written == Some(r.t.parsedContent) && !t.parsed
  {
    if t.parsed then ParseOutcome(t, None)
    else
      var cached := Cache(t, env).served;
      if cached.Some? && Truthy(cached.value) then ParseOutcome(SetParsed(t, cached.value), None)
      else
        var stamp := if env.now < 0 then 0 else env.now;
        var parsed := SetParsed(t, Translate(t.unparsed, stamp, middle));
        ParseOutcome(parsed, Cache(parsed, env).written)
  }

  /** Parsing twice is parsing once. */
  lemma ParseIdempotent(t: Template, env: Env, env': Env, middle: string -> string, middle': string -> string)
    ensures Parse(Parse(t, env, middle).t, env', middle').t == Parse(t, env, middle).t
    ensures Parse(Parse(t, env, middle).t, env', middle').written == None
  {
  }

  /** With no usable cache entry, `parse` brings every ignore region back
      verbatim without its tags when the middle stages change nothing, and
      writes that parse to the cache, provided the template has no `@` and
      no region holds an opening tag of its own. */
  lemma ParseRestoresIgnoreRegions(t: Template, env: Env)
    requires !t.parsed && NoAt(t.unparsed) && NoNestedOpen(t.unparsed)
    requires Cache(t, env).served.None?
    ensures Parse(t, env, s => s).t.parsedContent == Unwrap(Scan(t.unparsed))
    ensures Parse(t, env, s => s).written == Some(Unwrap(Scan(t.unparsed)))
  {
    var stamp := if env.now < 0 then 0 else env.now;
    AsWrittenRoundTrip(t.unparsed, stamp);
  }

  /** On those templates the source's stash and the positional one agree. */
  lemma TranslateAgreesWithPositional(source: string, stamp: nat)
    requires NoAt(source) && NoNestedOpen(source)
    ensures Translate(source, stamp, s => s) == Restore(StashText(source, stamp), StashStore(source, stamp))
  {
    AsWrittenRoundTrip(source, stamp);
    IgnoreRoundTrip(source, stamp);
  }

  /** Without that proviso `parse` can move text between regions: with
      middle stages that change nothing,
      `{IGNORE}x{/IGNORE}{IGNORE}a{IGNORE}x{/IGNORE}` is parsed to
      `x{IGNORE}ax`, not `xa{IGNORE}x`. (The real output stage would go on
      to compile the exposed `{IGNORE}` as a variable token.) */
  lemma ParseMisplacesNestedRegion(t: Template, env: Env, x: char, a: char)
    requires !t.parsed && t.unparsed == Sample(x, a) && Ordinary(x) && Ordinary(a) && x != a
    requires Cache(t, env).served.None?
    ensures Parse(t, env, s => s).t.parsedContent == [x] + Open + [a, x]
    ensures Parse(t, env, s => s).t.parsedContent != Unwrap(Scan(t.unparsed))
  {
    var stamp := if env.now < 0 then 0 else env.now;
    AsWrittenMisplacesNestedRegion(x, a, stamp);
  }

  /** A cache entry of `"0"` or `""` is served yet ignored: PHP reads it as
      false, so the template is parsed again and the entry rewritten. */
  lemma FalsyCacheEntryIsReparsed(t: Template, env: Env, middle: string -> string)
    requires !t.parsed && env.file.Some? && !Truthy(env.file.value.content)
    ensures Parse(t, env, middle).written.Some?
    ensures Parse(t, env, middle).t.parsedContent
         == Translate(t.unparsed, if env.now < 0 then 0 else env.now, middle)
  {
  }

  /** The outcome of `compile`: the template after the call, its compiled
      text, and what the parse it triggered wrote to the cache. */
  datatype CompileOutcome = CompileOutcome(t: Template, output: string, written: Option<string>)

  /** `compile`: a compiled template returns its stored output; otherwise the
      template is parsed if need be, the parse is run against the variables,
      and the output is stored. */
  function Compile(t: Template, env: Env, middle: string -> string, run: (string, Entries) -> string): (r: CompileOutcome)
    ensures t.compiled ==> r == CompileOutcome(t, t.compiledContent, None)
    ensures r.t.compiled && r.t.compiledContent == r.output
    ensures !t.compiled ==> r.t.parsed && r.output == run(r.t.parsedContent, t.vars)
    ensures !t.compiled && t.parsed ==> r.t.parsedContent == t.parsedContent && r.written == None
    ensures r.t.vars == t.vars && r.t.overwrite == t.overwrite && r.t.unparsed == t.unparsed
  {
    if t.compiled then CompileOutcome(t, t.compiledContent, None)
    else
      var p := if t.parsed then ParseOutcome(t, None) else Parse(t, env, middle);
      var output := run(p.t.parsedContent, p.t.vars);
      CompileOutcome(SetCompiled(p.t, output), output, p.written)
  }

  /** Compiling twice is compiling once, whatever the second call is given. */
  lemma CompileIdempotent(t: Template, env: Env, env': Env, middle: string -> string, middle': string -> string,
                          run: (string, Entries) -> string, run': (string, Entries) -> string)
    ensures Compile(Compile(t, env, middle, run).t, env', middle', run').output == Compile(t, env, middle, run).output
    ensures Compile(Compile(t, env, middle, run).t, env', middle', run').t == Compile(t, env, middle, run).t
  {
  }

  /** Compiling an unparsed template parses it exactly as `parse` would. */
  lemma CompileParsesFirst(t: Template, env: Env, middle: string -> string, run: (string, Entries) -> string)
    requires !t.compiled && !t.parsed
    ensures Compile(t, env, middle, run).t.parsedContent == Parse(t, env, middle).t.parsedContent
    ensures Compile(t, env, middle, run).written == Parse(t, env, middle).written
  {
  }
}

=== FILE: Strings.dfy ===
/**
 The PHP string primitives the templater relies on: `explode`, `implode`,
 `strtolower`, `str_replace`, `strpos`-style substring search and the
 decimal rendering of integers used when strings and numbers are concatenated.
 */
module Strings {

  /** `explode(c, s)` for a one-character separator: never empty, even for "". */
  function Split(s: string, c: char): (r: seq<string>)
    ensures |r| >= 1
    ensures forall i :: 0 <= i < |r| ==> c !in r[i]
    ensures Join(r, [c]) == s
    decreases |s|
  {
    if |s| == 0 then [""]
    else
      var rest := Split(s[1..], c);
      if s[0] == c then [""] + rest
      else [[s[0]] + rest[0]] + rest[1..]
  }

  /** `implode(sep, parts)`. */
  function Join(parts: seq<string>, sep: string): string
  {
    if |parts| == 0 then ""
    else if |parts| == 1 then parts[0]
    else parts[0] + sep + Join(parts[1..], sep)
  }

  /** The last piece `explode` produces, `$parts[count($parts) - 1]`. */
  function LastSegment(s: string, c: char): (r: string)
    ensures c !in r
    ensures |r| <= |s| && r == s[|s| - |r|..]
    ensures |r| < |s| ==> s[|s| - |r| - 1] == c
  {
    var parts := Split(s, c);
    JoinEndsWithLast(parts, [c]);
    parts[|parts| - 1]
  }

  /** `implode` ends with the last piece, after a separator when there is
      more than one piece. */
  lemma {:induction false} JoinEndsWithLast(parts: seq<string>, sep: string)
    requires |parts| >= 1
    ensures var j, l := Join(parts, sep), parts[|parts| - 1];
            |l| <= |j| && j[|j| - |l|..] == l
            && (|parts| > 1 ==> |l| + |sep| <= |j| && j[|j| - |l| - |sep|..|j| - |l|] == sep)
            && (|parts| == 1 ==> j == l)
    decreases |parts|
  {
    if |parts| > 1 {
      JoinEndsWithLast(parts[1..], sep);
      var j, t := Join(parts, sep), Join(parts[1..], sep);
      assert j == parts[0] + sep + t;
      var l := parts[|parts| - 1];
      assert l == parts[1..][|parts[1..]| - 1];
      assert j[|j| - |l|..] == t[|t| - |l|..];
      if |parts| == 2 {
        assert t == l;
        assert j[|j| - |l| - |sep|..|j| - |l|] == sep;
      } else {
        assert j[|j| - |l| - |sep|..|j| - |l|] == t[|t| - |l| - |sep|..|t| - |l|];
      }
    }
  }

  /** Splitting what `implode` joined gives the pieces back, provided no piece
      contains the separator: the other half of the explode/implode round trip. */
  lemma {:induction false} SplitJoin(parts: seq<string>, c: char)
    requires |parts| >= 1
    requires forall i :: 0 <= i < |parts| ==> c !in parts[i]
    ensures Split(Join(parts, [c]), c) == parts
    decreases |parts|, |parts[0]|
  {
    if |parts| == 1 {
      SplitNoSeparator(parts[0], c);
    } else if |parts[0]| == 0 {
      var tail := Join(parts[1..], [c]);
      assert Join(parts, [c]) == [c] + tail;
      SplitJoin(parts[1..], c);
      assert ([c] + tail)[1..] == tail;
    } else {
      var first := parts[0];
      var shorter := [first[1..]] + parts[1..];
      assert shorter[1..] == parts[1..];
      SplitJoin(shorter, c);
      var s := Join(parts, [c]);
      assert Join(shorter, [c]) == first[1..] + [c] + Join(parts[1..], [c]);
      assert s == [first[0]] + Join(shorter, [c]);
      assert s[1..] == Join(shorter, [c]);
      assert [first[0]] + first[1..] == first;
    }
  }

  lemma {:induction false} SplitNoSeparator(s: string, c: char)
    requires c !in s
    ensures Split(s, c) == [s]
    decreases |s|
  {
    if |s| > 0 {
      SplitNoSeparator(s[1..], c);
      assert [s[0]] + s[1..] == s;
    }
  }

  /** ASCII `strtolower`: only 'A'..'Z' change. */
  function LowerChar(ch: char): char
  {
    if 'A' <= ch <= 'Z' then (ch as int - 'A' as int + 'a' as int) as char else ch
  }

  function Lower(s: string): (r: string)
    ensures |r| == |s|
    ensures forall i :: 0 <= i < |s| ==> r[i] == LowerChar(s[i])
  {
    seq(|s|, i requires 0 <= i < |s| => LowerChar(s[i]))
  }

  /** `t` occurs in `s` at offset `k`. */
  predicate OccursAt(s: string, t: string, k: nat)
  {
    k + |t| <= |s| && s[k..k + |t|] == t
  }

  lemma OccursAtDrop(s: string, t: string, k: nat)
    requires 0 < k && 0 < |s|
    ensures OccursAt(s, t, k) <==> OccursAt(s[1..], t, k - 1)
  {
    if k + |t| <= |s| {
      var a, b := s[k..k + |t|], s[1..][k - 1..k - 1 + |t|];
      forall i | 0 <= i < |t| ensures a[i] == b[i] {
        assert a[i] == s[k + i];
      }
      assert a == b;
    }
  }

  /** `strpos(s, t) !== false`. */
  predicate Contains(s: string, t: string)
  {
    exists k: nat | k <= |s| :: OccursAt(s, t, k)
  }

  /** The text before the first occurrence of `sep`, or all of `s` when there
      is none: the first element of `explode(sep, s)`. */
  function BeforeFirst(s: string, sep: string): (r: string)
    requires |sep| > 0
    ensures |r| <= |s| && r == s[..|r|]
    ensures |r| < |s| ==> OccursAt(s, sep, |r|)
    ensures forall k: nat :: k < |r| ==> !OccursAt(s, sep, k)
    decreases |s|
  {
    if |s| < |sep| then s
    else if s[..|sep|] == sep then ""
    else
      var rest := BeforeFirst(s[1..], sep);
      assert forall k: nat :: 0 < k ==> (OccursAt(s, sep, k) <==> OccursAt(s[1..], sep, k - 1)) by {
        forall k: nat | 0 < k ensures OccursAt(s, sep, k) <==> OccursAt(s[1..], sep, k - 1) {
          OccursAtDrop(s, sep, k);
        }
      }
      [s[0]] + rest
  }

  /** PHP's `str_replace(f, t, s)` for one search string: occurrences are
      replaced left to right without overlap; an empty search string changes
      nothing. */
  function Replace(s: string, f: string, t: string): string
    decreases |s|
  {
    if |f| == 0 || |s| < |f| then s
    else if s[..|f|] == f then t + Replace(s[|f|..], f, t)
    else [s[0]] + Replace(s[1..], f, t)
  }

  /** When no occurrence of `f` starts inside `x`, replacing in `x + y` only
      touches `y`. */
  lemma {:induction false} ReplaceSkip(x: string, y: string, f: string, t: string)
    requires forall k: nat :: k < |x| ==> !OccursAt(x + y, f, k)
    ensures Replace(x + y, f, t) == x + Replace(y, f, t)
    decreases |x|
  {
    if |x| > 0 && |f| > 0 {
      var s := x + y;
      if |s| < |f| {
        assert Replace(y, f, t) == y;
      } else {
        assert !OccursAt(s, f, 0);
        assert s[1..] == x[1..] + y;
        forall k: nat | k < |x[1..]| ensures !OccursAt(x[1..] + y, f, k) {
          assert !OccursAt(s, f, k + 1);
          if k + |f| <= |x[1..] + y| {
            assert (x[1..] + y)[k..k + |f|] == s[k + 1..k + 1 + |f|];
          }
        }
        ReplaceSkip(x[1..], y, f, t);
        assert [x[0]] + x[1..] == x;
      }
    } else if |x| == 0 {
      assert x + y == y;
    }
  }

  /** Replacing a string that does not occur leaves the text as it is. */
  lemma {:induction false} ReplaceAbsent(s: string, f: string, t: string)
    requires forall k: nat :: k < |s| ==> !OccursAt(s, f, k)
    ensures Replace(s, f, t) == s
  {
    assert s + "" == s;
    ReplaceSkip(s, "", f, t);
  }

  predicate IsDigit(ch: char)
  {
    '0' <= ch <= '9'
  }

  /** Decimal digits of a natural number, as PHP renders an int in a string. */
  function NatToString(n: nat): (r: string)
    ensures |r| >= 1
    ensures forall i :: 0 <= i < |r| ==> IsDigit(r[i])
    decreases n
  {
    if n < 10 then [('0' as int + n) as char]
    else NatToString(n / 10) + [('0' as int + n % 10) as char]
  }

  /** Distinct numbers render as distinct strings. */
  lemma {:induction false} NatToStringInjective(m: nat, n: nat)
    requires NatToString(m) == NatToString(n)
    ensures m == n
    decreases m
  {
    var a, b := NatToString(m), NatToString(n);
    if m >= 10 && n >= 10 {
      assert |NatToString(m / 10)| == |a| - 1;
      assert a[|a| - 1] == b[|b| - 1];
      assert NatToString(m / 10) == a[..|a| - 1] == b[..|b| - 1] == NatToString(n / 10);
      NatToStringInjective(m / 10, n / 10);
    }
  }
}

=== FILE: TemplateState.dfy ===
/**
 The per-instance data holder of Template.php: the variable tree, the
 overwrite policy, the raw source, and the parsed/compiled flags with their
 payloads. Every setter returns a new record.
 */
module TemplateState {
  import opened Values
  import Variables

  datatype Template = Template(
    vars: Entries,
    overwrite: bool,
    unparsed: string,
    parsed: bool,
    parsedContent: string,
    compiled: bool,
    compiledContent: string)

  /** A freshly constructed template: no variables, overwriting on, nothing parsed. */
  function NewTemplate(): (t: Template)
    ensures t.vars == [] && t.overwrite
    ensures !t.parsed && !t.compiled
  {
    Template([], true, "", false, "", false, "")
  }

  /** `set_content`: only the raw source changes (the static store it also
      feeds is not part of this model). */
  function SetContent(t: Template, content: string): (r: Template)
    ensures r.unparsed == content
    ensures r.vars == t.vars && r.overwrite == t.overwrite
    ensures r.parsed == t.parsed && r.parsedContent == t.parsedContent
    ensures r.compiled == t.compiled && r.compiledContent == t.compiledContent
  {
    t.(unparsed := content)
  }

  /** `set_parsed`: raise the parsed flag and keep the content; nothing else changes. */
  function SetParsed(t: Template, content: string): (r: Template)
    ensures IsParsed(r) && GetParsed(r) == content
    ensures r.vars == t.vars && r.overwrite == t.overwrite && r.unparsed == t.unparsed
    ensures r.compiled == t.compiled && r.compiledContent == t.compiledContent
  {
    t.(parsed := true, parsedContent := content)
  }

  function IsParsed(t: Template): bool { t.parsed }

  function GetParsed(t: Template): string { t.parsedContent }

  /** `set_compiled`: raise the compiled flag and keep the content; nothing else changes. */
  function SetCompiled(t: Template, content: string): (r: Template)
    ensures IsCompiled(r) && GetCompiled(r) == content
    ensures r.vars == t.vars && r.overwrite == t.overwrite && r.unparsed == t.unparsed
    ensures r.parsed == t.parsed && r.parsedContent == t.parsedContent
  {
    t.(compiled := true, compiledContent := content)
  }

  function IsCompiled(t: Template): bool { t.compiled }

  function GetCompiled(t: Template): string { t.compiledContent }

  /** `get_unparsed_content` and `get_vars`. */
  function GetUnparsedContent(t: Template): string { t.unparsed }

  function GetVars(t: Template): Entries { t.vars }

  /** `set` on a template: only the variable tree changes. */
  function Set(t: Template, name: Value, value: Value): (r: Template)
    ensures r.vars == Variables.Set(t.vars, t.overwrite, name, value)
    ensures r.(vars := t.vars) == t
  {
    t.(vars := Variables.Set(t.vars, t.overwrite, name, value))
  }

  /** `set_loop` on a template: only the variable tree changes. */
  function SetLoop(t: Template, name: Value, record: Value): (r: Template)
    ensures r.vars == Variables.SetLoop(t.vars, name, record)
    ensures r.(vars := t.vars) == t
  {
    t.(vars := Variables.SetLoop(t.vars, name, record))
  }
}

=== FILE: Values.dfy ===
/**
 The variable tree a template is rendered against. A PHP array is an ordered
 map whose keys are strings or integers; the templater uses the same array
 both as a namespace (string keys) and as a loop list (records appended under
 the next free integer key), so one `Arr` constructor serves both roles.
 */
module Values {

  datatype Option<T> = None | Some(value: T)

  datatype Key = S(name: string) | I(index: int)

  datatype Value = Scal(text: string) | Arr(entries: seq<(Key, Value)>)

  type Entries = seq<(Key, Value)>

  /** The keys present in an array. */
  function Keys(es: Entries): set<Key>
  {
    set i | 0 <= i < |es| :: es[i].0
  }

  lemma KeysCons(e: (Key, Value), es: Entries)
    ensures Keys([e] + es) == {e.0} + Keys(es)
  {
    var r := [e] + es;
    forall k | k in Keys(es) ensures k in Keys(r) {
      var i :| 0 <= i < |es| && es[i].0 == k;
      assert r[i + 1].0 == k;
    }
    forall k | k in Keys(r) ensures k in {e.0} + Keys(es) {
      var i :| 0 <= i < |r| && r[i].0 == k;
      if i > 0 {
        assert es[i - 1].0 == k;
      }
    }
    assert r[0].0 == e.0;
  }

  /** PHP arrays never hold a key twice. */
  predicate UniqueKeys(es: Entries)
  {
    forall i, j :: 0 <= i < j < |es| ==> es[i].0 != es[j].0
  }

  /** Where key `k` first sits in the array. */
  function FirstIndex(es: Entries, k: Key): (i: nat)
    requires k in Keys(es)
    ensures i < |es| && es[i].0 == k
    ensures forall j :: 0 <= j < i ==> es[j].0 != k
  {
    if es[0].0 == k then 0
    else
      assert es == [es[0]] + es[1..];
      KeysCons(es[0], es[1..]);
      1 + FirstIndex(es[1..], k)
  }

  lemma FirstIndexUnique(es: Entries, k: Key, i: nat)
    requires i < |es| && es[i].0 == k
    requires forall j :: 0 <= j < i ==> es[j].0 != k
    ensures FirstIndex(es, k) == i
  {
  }

  /** `$arr[$k]`, or `None` where PHP would report an undefined index. */
  function Lookup(es: Entries, k: Key): (r: Option<Value>)
    ensures r.None? <==> k !in Keys(es)
    ensures r.Some? ==> (k, r.value) in es
  {
    if k in Keys(es) then Some(es[FirstIndex(es, k)].1) else None
  }

  /** `$arr[$k] = $v`: an existing key keeps its position and takes the new
      value; a new key goes to the end. */
  function Put(es: Entries, k: Key, v: Value): (r: Entries)
    ensures Lookup(r, k) == Some(v)
    ensures forall k' :: k' != k ==> Lookup(r, k') == Lookup(es, k')
    ensures Keys(r) == Keys(es) + {k}
    ensures UniqueKeys(es) ==> UniqueKeys(r)
    ensures k in Keys(es) ==> |r| == |es|
    ensures k !in Keys(es) ==> r == es + [(k, v)]
  {
    if k in Keys(es) then
      var r := es[FirstIndex(es, k) := (k, v)];
      PutExisting(es, k, v, r);
      r
    else
      var r := es + [(k, v)];
      PutNew(es, k, v, r);
      r
  }

  /** Writing a key's current value back changes nothing. */
  lemma PutSame(es: Entries, k: Key, v: Value)
    requires Lookup(es, k) == Some(v)
    ensures Put(es, k, v) == es
  {
    var i := FirstIndex(es, k);
    assert es[i] == (k, v);
  }

  lemma PutExisting(es: Entries, k: Key, v: Value, r: Entries)
    requires k in Keys(es) && r == es[FirstIndex(es, k) := (k, v)]
    ensures Keys(r) == Keys(es)
    ensures Lookup(r, k) == Some(v)
    ensures forall k' :: k' != k ==> Lookup(r, k') == Lookup(es, k')
    ensures UniqueKeys(es) ==> UniqueKeys(r)
  {
    var i := FirstIndex(es, k);
    forall x | x in Keys(es) ensures x in Keys(r) {
      var j :| 0 <= j < |es| && es[j].0 == x;
      assert r[j].0 == x;
    }
    FirstIndexUnique(r, k, i);
    forall k' | k' != k && k' in Keys(es) ensures FirstIndex(r, k') == FirstIndex(es, k') {
      FirstIndexUnique(r, k', FirstIndex(es, k'));
    }
  }

  lemma PutNew(es: Entries, k: Key, v: Value, r: Entries)
    requires k !in Keys(es) && r == es + [(k, v)]
    ensures Keys(r) == Keys(es) + {k}
    ensures Lookup(r, k) == Some(v)
    ensures forall k' :: k' != k ==> Lookup(r, k') == Lookup(es, k')
    ensures UniqueKeys(es) ==> UniqueKeys(r)
  {
    assert r[|es|].0 == k;
    forall x | x in Keys(es) ensures x in Keys(r) {
      var j :| 0 <= j < |es| && es[j].0 == x;
      assert r[j].0 == x;
    }
    FirstIndexUnique(r, k, |es|);
    forall k' | k' != k && k' in Keys(es) ensures FirstIndex(r, k') == FirstIndex(es, k') {
      FirstIndexUnique(r, k', FirstIndex(es, k'));
    }
  }

  /** The largest integer key, or -1 when there is none. */
  function MaxIntKey(es: Entries): (m: int)
    ensures forall j :: I(j) in Keys(es) ==> j <= m
    ensures m == -1 || I(m) in Keys(es)
  {
    if |es| == 0 then -1
    else
      var rest := MaxIntKey(es[1..]);
      assert Keys(es) == {es[0].0} + Keys(es[1..]);
      match es[0].0
      case I(j) => if j > rest then j else rest
      case S(_) => rest
  }

  /** The key `$arr[] = $v` uses: one past the largest integer key, and never
      below zero (the rule of PHP before 8.3). */
  function NextIndex(es: Entries): (n: nat)
    ensures I(n) !in Keys(es)
    ensures forall j :: I(j) in Keys(es) ==> j < n
    ensures n == 0 || I(n - 1) in Keys(es)
  {
    var m := MaxIntKey(es);
    if m + 1 < 0 then 0 else m + 1
  }

  /** `$arr[] = $v`: the earlier entries stay as they were and the new value
      is found under a fresh integer key at the end. */
  function Append(es: Entries, v: Value): (r: Entries)
    ensures |r| == |es| + 1 && r[..|es|] == es
    ensures r[|es|].0 !in Keys(es) && r[|es|].1 == v
    ensures r[|es|].0.I? && r[|es|].0.index >= 0
    ensures forall j :: I(j) in Keys(es) ==> j < r[|es|].0.index
    ensures r[|es|].0.index == 0 || I(r[|es|].0.index - 1) in Keys(es)
    ensures UniqueKeys(es) ==> UniqueKeys(r)
  {
    var r := es + [(I(NextIndex(es)), v)];
    assert r[..|es|] == es;
    r
  }

  /** A list: keyed `0`, `1`, ... in order, as `array()` is. */
  predicate IsList(es: Entries)
  {
    forall k :: 0 <= k < |es| ==> es[k].0 == I(k)
  }

  /** Appending to a list keys the new value with the list's length, so a
      list built only by `$arr[] = $v` from `array()` stays a list. */
  lemma AppendKeepsList(es: Entries, v: Value)
    requires IsList(es)
    ensures IsList(Append(es, v))
    ensures Append(es, v)[|es|].0 == I(|es|)
  {
    var n := NextIndex(es);
    if n > 0 {
      var j :| 0 <= j < |es| && es[j].0 == I(n - 1);
    }
    if |es| > 0 {
      assert I(|es| - 1) in Keys(es) by {
        assert es[|es| - 1].0 == I(|es| - 1);
      }
    }
  }

  /** Following a path of keys from a value: `$v[$p0][$p1]...`. */
  function GetPath(v: Value, p: seq<Key>): Option<Value>
    decreases |p|
  {
    if |p| == 0 then Some(v)
    else match v
      case Scal(_) => None
      case Arr(es) =>
        match Lookup(es, p[0])
        case None => None
        case Some(c) => GetPath(c, p[1..])
  }

  /** The string keys `S(n)` for a list of names. */
  function Names(ns: seq<string>): (r: seq<Key>)
    ensures |r| == |ns|
    ensures forall i :: 0 <= i < |ns| ==> r[i] == S(ns[i])
  {
    seq(|ns|, i requires 0 <= i < |ns| => S(ns[i]))
  }
}

=== FILE: Variables.dfy ===
/**
 The variable store of `Template` (Template.php): `set`, `_assign_var`,
 `_assign_nested_vars` and `set_loop`, as pure functions from the old
 variable array to the new one. The PHP code walks the array through
 references; here each level of the walk is one recursive call that rebuilds
 the level it descended into.
 */
module Variables {
  import opened Values
  import opened Strings

  /** Every array in the tree has distinct keys, as PHP arrays do. */
  predicate WellFormed(v: Value)
  {
    match v
    case Scal(_) => true
    case Arr(es) => UniqueKeys(es) && forall i :: 0 <= i < |es| ==> WellFormed(es[i].1)
  }

  lemma PutWellFormed(es: Entries, k: Key, v: Value)
    requires WellFormed(Arr(es)) && WellFormed(v)
    ensures WellFormed(Arr(Put(es, k, v)))
  {
    var r := Put(es, k, v);
    forall i | 0 <= i < |r| ensures WellFormed(r[i].1) {
      if r[i].1 != v {
        assert r[i] in es;
      }
    }
  }

  // ---------------------------------------------------------------------
  // _assign_nested_vars
  // ---------------------------------------------------------------------

  /** One level of `_assign_nested_vars`: `segs` are the segments still to
      walk and `last` is the final segment of the whole path. The walk stops
      at the FIRST segment equal to `last`, even when that is not the final
      one. A missing intermediate is created as an empty array; a scalar
      intermediate is replaced by an empty array when `overwrite` holds and
      otherwise ends the walk, keeping what the outer levels already created. */
  function AssignNested(es: Entries, segs: seq<string>, last: string, v: Value, overwrite: bool): (r: Entries)
    ensures |segs| == 0 ==> r == es
    ensures |segs| > 0 ==> Keys(es) <= Keys(r) <= Keys(es) + {S(segs[0])}
    ensures |segs| > 0 ==> forall k :: k != S(segs[0]) ==> Lookup(r, k) == Lookup(es, k)
    decreases |segs|
  {
    if |segs| == 0 then es
    else if segs[0] == last then Put(es, S(last), v)
    else
      var n := S(segs[0]);
      match Lookup(es, n)
      case None => Put(es, n, Arr(AssignNested([], segs[1..], last, v, overwrite)))
      case Some(Arr(sub)) => Put(es, n, Arr(AssignNested(sub, segs[1..], last, v, overwrite)))
      case Some(Scal(_)) =>
        if overwrite then Put(es, n, Arr(AssignNested([], segs[1..], last, v, overwrite)))
        else es
  }

  /** `_assign_nested_vars($path, $value)`: split the path on ':' and walk it. */
  function AssignNestedVars(vars: Entries, path: string, v: Value, overwrite: bool): Entries
  {
    AssignNested(vars, Split(path, ':'), LastSegment(path, ':'), v, overwrite)
  }

  /** The segments the walk actually visits: everything up to and including
      the first segment equal to `last`. */
  function TargetPath(segs: seq<string>, last: string): (p: seq<string>)
    ensures |p| <= |segs| && p == segs[..|p|]
    ensures last in segs ==> |p| > 0 && p[|p| - 1] == last
    ensures forall i :: 0 <= i < |p| - 1 ==> p[i] != last
  {
    if |segs| == 0 then []
    else if segs[0] == last then [last]
    else [segs[0]] + TargetPath(segs[1..], last)
  }

  /** No intermediate on the walk holds a scalar, so the walk never stops early. */
  predicate Descends(es: Entries, segs: seq<string>, last: string)
    decreases |segs|
  {
    if |segs| == 0 || segs[0] == last then true
    else match Lookup(es, S(segs[0]))
      case None => true
      case Some(Arr(sub)) => Descends(sub, segs[1..], last)
      case Some(Scal(_)) => false
  }

  /** After the assignment the value sits at the end of the walked path,
      unless a scalar intermediate stopped the walk under `overwrite = false`. */
  lemma {:induction false} NestedSetsTarget(es: Entries, segs: seq<string>, last: string, v: Value, overwrite: bool)
    requires last in segs
    requires overwrite || Descends(es, segs, last)
    ensures GetPath(Arr(AssignNested(es, segs, last, v, overwrite)), Names(TargetPath(segs, last))) == Some(v)
    decreases |segs|
  {
    var r := AssignNested(es, segs, last, v, overwrite);
    var p := Names(TargetPath(segs, last));
    if segs[0] == last {
      assert p == [S(last)];
      assert GetPath(Arr(r), p) == GetPath(v, p[1..]);
    } else {
      var n := S(segs[0]);
      assert last in segs[1..];
      var tail := Names(TargetPath(segs[1..], last));
      assert p == [n] + tail;
      assert p[1..] == tail;
      match Lookup(es, n)
      case None =>
        NestedSetsTarget([], segs[1..], last, v, overwrite);
      case Some(Arr(sub)) =>
        NestedSetsTarget(sub, segs[1..], last, v, overwrite);
      case Some(Scal(_)) =>
        NestedSetsTarget([], segs[1..], last, v, overwrite);
    }
  }

  /** A missing intermediate is created as an array that holds nothing but
      the rest of the path. */
  lemma FreshNestHoldsOnlyPath(segs: seq<string>, last: string, v: Value, overwrite: bool)
    requires |segs| > 0 && last in segs
    ensures AssignNested([], segs, last, v, overwrite) == [(S(segs[0]), if segs[0] == last then v else Arr(AssignNested([], segs[1..], last, v, overwrite)))]
  {
  }

  /** With `overwrite` off, a scalar first intermediate drops the assignment. */
  lemma ScalarIntermediateDrops(es: Entries, segs: seq<string>, last: string, v: Value, t: string)
    requires |segs| > 0 && segs[0] != last
    requires Lookup(es, S(segs[0])) == Some(Scal(t))
    ensures AssignNested(es, segs, last, v, false) == es
    ensures AssignNested(es, segs, last, v, true) == Put(es, S(segs[0]), Arr(AssignNested([], segs[1..], last, v, true)))
  {
  }

  /** With `overwrite` off, a scalar met anywhere on the walk drops the
      assignment: the arrays passed on the way down are written back as they
      were. */
  lemma {:induction false} ScalarOnPathDrops(es: Entries, segs: seq<string>, last: string, v: Value)
    requires !Descends(es, segs, last)
    ensures AssignNested(es, segs, last, v, false) == es
    decreases |segs|
  {
    var n := S(segs[0]);
    match Lookup(es, n)
    case Some(Arr(sub)) =>
      ScalarOnPathDrops(sub, segs[1..], last, v);
      PutSame(es, n, Arr(sub));
    case Some(Scal(_)) =>
  }

  /** Sibling keys survive at every level of the walk: any path that follows
      the walk for `d` levels through existing arrays and then turns aside to
      another key `k` reads the same value before and after. */
  lemma {:induction false} NestedKeepsSiblings(es: Entries, segs: seq<string>, last: string, v: Value, overwrite: bool,
                                               d: nat, k: Key, rest: seq<Key>)
    requires d < |segs|
    requires forall i :: 0 <= i < d ==> segs[i] != last
    requires k != S(segs[d])
    requires GetPath(Arr(es), Names(segs[..d])).Some? && GetPath(Arr(es), Names(segs[..d])).value.Arr?
    ensures GetPath(Arr(AssignNested(es, segs, last, v, overwrite)), Names(segs[..d]) + [k] + rest)
         == GetPath(Arr(es), Names(segs[..d]) + [k] + rest)
    decreases d
  {
    var r := AssignNested(es, segs, last, v, overwrite);
    var p := Names(segs[..d]) + [k] + rest;
    if d == 0 {
      assert p == [k] + rest;
      assert p[1..] == rest;
      assert Lookup(r, k) == Lookup(es, k);
    } else {
      var n := S(segs[0]);
      assert segs[0] != last;
      assert p[0] == n;
      var p' := Names(segs[1..][..d - 1]) + [k] + rest;
      assert p[1..] == p';
      assert Names(segs[..d])[0] == n;
      assert Names(segs[..d])[1..] == Names(segs[1..][..d - 1]);
      match Lookup(es, n)
      case None =>
        assert false;
      case Some(Scal(_)) =>
        assert false;
      case Some(Arr(sub)) =>
        assert GetPath(Arr(es), Names(segs[..d])) == GetPath(Arr(sub), Names(segs[1..][..d - 1]));
        NestedKeepsSiblings(sub, segs[1..], last, v, overwrite, d - 1, k, rest);
        assert Lookup(r, n) == Some(Arr(AssignNested(sub, segs[1..], last, v, overwrite)));
    }
  }

  /** The nested assignment keeps every array's keys distinct. */
  lemma {:induction false} NestedWellFormed(es: Entries, segs: seq<string>, last: string, v: Value, overwrite: bool)
    requires WellFormed(Arr(es)) && WellFormed(v)
    ensures WellFormed(Arr(AssignNested(es, segs, last, v, overwrite)))
    decreases |segs|
  {
    if |segs| > 0 {
      if segs[0] == last {
        PutWellFormed(es, S(last), v);
      } else {
        var n := S(segs[0]);
        match Lookup(es, n)
        case None =>
          NestedWellFormed([], segs[1..], last, v, overwrite);
          PutWellFormed(es, n, Arr(AssignNested([], segs[1..], last, v, overwrite)));
        case Some(Arr(sub)) =>
          assert (n, Arr(sub)) in es;
          NestedWellFormed(sub, segs[1..], last, v, overwrite);
          PutWellFormed(es, n, Arr(AssignNested(sub, segs[1..], last, v, overwrite)));
        case Some(Scal(_)) =>
          if overwrite {
            NestedWellFormed([], segs[1..], last, v, overwrite);
            PutWellFormed(es, n, Arr(AssignNested([], segs[1..], last, v, overwrite)));
          }
      }
    }
  }

  // ---------------------------------------------------------------------
  // _assign_var and set
  // ---------------------------------------------------------------------

  /** `_assign_var($name, $value)`. The overwrite guard looks the WHOLE name
      up as a top-level key, so for a colon name it only ever guards the
      literal key "A:B", never the nested target. An integer key (from the
      array form of `set`) never contains a colon. */
  function AssignVar(vars: Entries, overwrite: bool, name: Key, v: Value): (r: Entries)
    ensures Keys(vars) <= Keys(r)
    ensures !overwrite && name in Keys(vars) ==> r == vars
    ensures (overwrite || name !in Keys(vars)) && (name.I? || ':' !in name.name) ==>
              Lookup(r, name) == Some(v) && forall k :: k != name ==> Lookup(r, k) == Lookup(vars, k)
  {
    if name !in Keys(vars) || overwrite then
      match name
      case S(n) => if ':' in n then AssignNestedVars(vars, n, v, overwrite) else Put(vars, name, v)
      case I(_) => Put(vars, name, v)
    else vars
  }

  /** The array form of `set`: `_assign_var` on each pair in iteration order. */
  function AssignEach(vars: Entries, overwrite: bool, pairs: Entries): (r: Entries)
    ensures Keys(vars) <= Keys(r)
    ensures |pairs| == 0 ==> r == vars
    decreases |pairs|
  {
    if |pairs| == 0 then vars
    else AssignEach(AssignVar(vars, overwrite, pairs[0].0, pairs[0].1), overwrite, pairs[1..])
  }

  /** `set($name, $value)`: a string name assigns one variable, an array name
      assigns each of its pairs (and `$value` is ignored). */
  function Set(vars: Entries, overwrite: bool, name: Value, value: Value): (r: Entries)
    ensures Keys(vars) <= Keys(r)
    ensures name.Scal? && !overwrite && S(name.text) in Keys(vars) ==> r == vars
    ensures name.Scal? && (overwrite || S(name.text) !in Keys(vars)) && ':' !in name.text ==>
              Lookup(r, S(name.text)) == Some(value) && forall k :: k != S(name.text) ==> Lookup(r, k) == Lookup(vars, k)
  {
    match name
    case Scal(n) => AssignVar(vars, overwrite, S(n), value)
    case Arr(pairs) => AssignEach(vars, overwrite, pairs)
  }

  /** Setting a batch is setting its first part, then its second part. */
  lemma {:induction false} SetBatchSplits(vars: Entries, overwrite: bool, a: Entries, b: Entries, ignored: Value)
    ensures Set(vars, overwrite, Arr(a + b), ignored)
         == Set(Set(vars, overwrite, Arr(a), ignored), overwrite, Arr(b), ignored)
    decreases |a|
  {
    if |a| > 0 {
      assert (a + b)[0] == a[0];
      assert (a + b)[1..] == a[1..] + b;
      SetBatchSplits(AssignVar(vars, overwrite, a[0].0, a[0].1), overwrite, a[1..], b, ignored);
    } else {
      assert a + b == b;
    }
  }

  /** A one-pair batch is the same as the string form of `set`. */
  lemma SetSinglePair(vars: Entries, overwrite: bool, n: string, v: Value, ignored: Value)
    ensures Set(vars, overwrite, Arr([(S(n), v)]), ignored) == Set(vars, overwrite, Scal(n), v)
  {
    var pairs := [(S(n), v)];
    assert pairs[1..] == [];
    assert AssignEach(vars, overwrite, pairs) == AssignEach(AssignVar(vars, overwrite, S(n), v), overwrite, pairs[1..]);
  }

  /** `set` on a colon name reaches the nested target whenever the walk is
      not stopped by a scalar. */
  lemma SetNestedReachesTarget(vars: Entries, overwrite: bool, path: string, v: Value)
    requires ':' in path
    requires overwrite || (S(path) !in Keys(vars) && Descends(vars, Split(path, ':'), LastSegment(path, ':')))
    ensures GetPath(Arr(Set(vars, overwrite, Scal(path), v)), Names(TargetPath(Split(path, ':'), LastSegment(path, ':')))) == Some(v)
  {
    var segs := Split(path, ':');
    assert segs[|segs| - 1] in segs;
    NestedSetsTarget(vars, segs, LastSegment(path, ':'), v, overwrite);
  }

  /** With overwrite off, `set('A:B', ...)` still replaces an existing nested
      value `A => [B => prior]`: the guard only looks at the literal top-level
      key "A:B". */
  lemma NestedGuardOnlyProtectsPlainKeys(a: string, b: string, prior: Value, v: Value)
    requires ':' !in a && ':' !in b && a != b
    ensures var vars := [(S(a), Arr([(S(b), prior)]))];
            GetPath(Arr(Set(vars, false, Scal(a + ":" + b), v)), [S(a), S(b)]) == Some(v)
  {
    var vars := [(S(a), Arr([(S(b), prior)]))];
    var path := a + ":" + b;
    SplitPair(a, b);
    assert vars[0].0 == S(a);
    assert Keys(vars) == {S(a)};
    assert |path| > |a|;
    assert Lookup(vars, S(a)) == Some(Arr([(S(b), prior)]));
    assert Descends([(S(b), prior)], [a, b][1..], b);
    assert Descends(vars, [a, b], b);
    SetNestedReachesTarget(vars, false, path, v);
    assert [a, b][1..] == [b];
    assert TargetPath([a, b], b) == [a] + TargetPath([b], b) == [a, b];
    assert Names([a, b]) == [S(a), S(b)];
  }

  /** `A:B` splits into `A` and `B` when neither holds a colon. */
  lemma SplitPair(a: string, b: string)
    requires ':' !in a && ':' !in b
    ensures Split(a + ":" + b, ':') == [a, b]
    ensures LastSegment(a + ":" + b, ':') == b
    ensures ':' in a + ":" + b
  {
    SplitJoin([a, b], ':');
    assert [a, b][1..] == [b];
    assert Join([a, b], [':']) == a + [':'] + Join([b], [':']);
    assert a + ":" + b == a + [':'] + b;
    assert (a + ":" + b)[|a|] == ':';
  }

  lemma {:induction false} AssignEachWellFormed(vars: Entries, overwrite: bool, pairs: Entries)
    requires WellFormed(Arr(vars))
    requires forall i :: 0 <= i < |pairs| ==> WellFormed(pairs[i].1)
    ensures WellFormed(Arr(AssignEach(vars, overwrite, pairs)))
    decreases |pairs|
  {
    if |pairs| > 0 {
      AssignVarWellFormed(vars, overwrite, pairs[0].0, pairs[0].1);
      AssignEachWellFormed(AssignVar(vars, overwrite, pairs[0].0, pairs[0].1), overwrite, pairs[1..]);
    }
  }

  lemma AssignVarWellFormed(vars: Entries, overwrite: bool, name: Key, v: Value)
    requires WellFormed(Arr(vars)) && WellFormed(v)
    ensures WellFormed(Arr(AssignVar(vars, overwrite, name, v)))
  {
    if name !in Keys(vars) || overwrite {
      if name.S? && ':' in name.name {
        NestedWellFormed(vars, Split(name.name, ':'), LastSegment(name.name, ':'), v, overwrite);
      } else {
        PutWellFormed(vars, name, v);
      }
    }
  }

  /** `set` keeps the variable tree well formed. */
  lemma SetWellFormed(vars: Entries, overwrite: bool, name: Value, value: Value)
    requires WellFormed(Arr(vars)) && WellFormed(name) && WellFormed(value)
    ensures WellFormed(Arr(Set(vars, overwrite, name, value)))
  {
    match name
    case Scal(n) => AssignVarWellFormed(vars, overwrite, S(n), value);
    case Arr(pairs) => AssignEachWellFormed(vars, overwrite, pairs);
  }

  // ---------------------------------------------------------------------
  // set_loop
  // ---------------------------------------------------------------------

  /** One level of `set_loop`'s walk. An ancestor segment must hold an
      array; the walk then enters the entry under key `count - 1` of that
      array (the last record of a list). At the first segment equal to
      `last` the record is appended to the array found there, or a fresh
      one-record list replaces whatever else was there. */
  function LoopAt(es: Entries, nests: seq<string>, last: string, rec: Value): (r: Entries)
    ensures |nests| == 0 ==> r == es
    ensures |nests| > 0 ==> Keys(es) <= Keys(r) <= Keys(es) + {S(nests[0])}
    ensures |nests| > 0 ==> forall k :: k != S(nests[0]) ==> Lookup(r, k) == Lookup(es, k)
    decreases |nests|
  {
    if |nests| == 0 then es
    else if nests[0] == last then
      match Lookup(es, S(last))
      case Some(Arr(items)) => Put(es, S(last), Arr(Append(items, rec)))
      case _ => Put(es, S(last), Arr([(I(0), rec)]))
    else
      var n := S(nests[0]);
      match Lookup(es, n)
      case Some(Arr(items)) =>
        var slot := I(|items| - 1);
        (match Lookup(items, slot)
         case Some(Arr(record)) => Put(es, n, Arr(Put(items, slot, Arr(LoopAt(record, nests[1..], last, rec)))))
         case None => Put(es, n, Arr(Put(items, slot, Arr(LoopAt([], nests[1..], last, rec)))))
         case Some(Scal(_)) => es)
      case _ => es
  }

  /** `set_loop($name, $values)`: only a string name and an array record do
      anything. */
  function SetLoop(vars: Entries, name: Value, record: Value): (r: Entries)
    ensures !name.Scal? || !record.Arr? ==> r == vars
  {
    if !record.Arr? || !name.Scal? then vars
    else
      var nests := Split(name.text, '.');
      LoopAt(vars, nests, nests[|nests| - 1], record)
  }

  /** A dot-free name appends to the list under that key, leaving its earlier
      records and every other key as they were; when the key holds no array,
      it is replaced by a one-record list. */
  lemma SetLoopSingleSegment(vars: Entries, name: string, record: Value)
    requires '.' !in name && record.Arr?
    ensures var r := SetLoop(vars, Scal(name), record);
            && (forall k :: k != S(name) ==> Lookup(r, k) == Lookup(vars, k))
            && match Lookup(vars, S(name))
               case Some(Arr(items)) =>
                 exists items': Entries :: Lookup(r, S(name)) == Some(Arr(items'))
                   && |items'| == |items| + 1 && items'[..|items|] == items && items'[|items|].1 == record
               case _ => Lookup(r, S(name)) == Some(Arr([(I(0), record)]))
  {
    SplitNoSeparator(name, '.');
    match Lookup(vars, S(name))
    case Some(Arr(items)) =>
      var items' := Append(items, record);
      assert Lookup(SetLoop(vars, Scal(name), record), S(name)) == Some(Arr(items'));
    case _ =>
  }

  /** A dotted name whose first ancestor is missing or not an array changes nothing. */
  lemma SetLoopMissingAncestor(vars: Entries, name: string, record: Value)
    requires record.Arr?
    requires var nests := Split(name, '.'); |nests| > 1 && nests[0] != nests[|nests| - 1]
    requires !(Lookup(vars, S(Split(name, '.')[0])).Some? && Lookup(vars, S(Split(name, '.')[0])).value.Arr?)
    ensures SetLoop(vars, Scal(name), record) == vars
  {
  }

  /** A missing deeper ancestor changes nothing either, as long as the list
      above it has a last record to descend into. */
  lemma SetLoopMissingDeeperAncestor(vars: Entries, a: string, b: string, c: string, items: Entries, last: Entries, record: Value)
    requires '.' !in a && '.' !in b && '.' !in c && a != c && b != c && record.Arr?
    requires Lookup(vars, S(a)) == Some(Arr(items))
    requires Lookup(items, I(|items| - 1)) == Some(Arr(last))
    requires Lookup(last, S(b)).None?
    ensures SetLoop(vars, Scal(a + "." + b + "." + c), record) == vars
  {
    assert Split(a + "." + b + "." + c, '.') == [a, b, c] by {
      SplitJoin([a, b, c], '.');
      assert [a, b, c][1..] == [b, c] && [b, c][1..] == [c];
      assert Join([b, c], ['.']) == b + "." + c;
      assert Join([a, b, c], ['.']) == a + "." + (b + "." + c);
      assert a + "." + (b + "." + c) == a + "." + b + "." + c;
    }
    assert LoopAt(last, [b, c], c, record) == last;
    PutSame(items, I(|items| - 1), Arr(last));
    PutSame(vars, S(a), Arr(items));
  }

  /** Descending into an empty parent list, `set_loop` makes the parent's
      record slot under key -1, one less than the list's count of 0; the
      child list it starts there is keyed from 0. */
  lemma SetLoopIntoEmptyParent(p: string, c: string, record: Value)
    requires '.' !in p && '.' !in c && p != c && record.Arr?
    ensures SetLoop([(S(p), Arr([]))], Scal(p + "." + c), record)
         == [(S(p), Arr([(I(-1), Arr([(S(c), Arr([(I(0), record)]))]))]))]
  {
    assert Split(p + "." + c, '.') == [p, c] by {
      SplitJoin([p, c], '.');
      assert Join([p, c], ['.']) == p + "." + c;
    }
    var vars := Put([], S(p), Arr([]));
    assert vars == [(S(p), Arr([]))];
    var child := Put([], S(c), Arr([(I(0), record)]));
    assert child == [(S(c), Arr([(I(0), record)]))];
    assert LoopAt([], [c], c, record) == child;
    var items := Put([], I(-1), Arr(child));
    assert items == [(I(-1), Arr(child))];
    assert [p, c][1..] == [c];
    assert LoopAt(vars, [p, c], c, record) == Put(vars, S(p), Arr(items));
    assert SetLoop([(S(p), Arr([]))], Scal(p + "." + c), record) == Put([(S(p), Arr([]))], S(p), Arr(items));
  }

  /** Under a dotted name the record lands in the last record of the
      ancestor list: the ancestor keeps its other records and every other
      top-level key is untouched. */
  lemma SetLoopDescendsIntoLastRecord(vars: Entries, parent: string, child: string, items: Entries, last: Entries, record: Value)
    requires '.' !in parent && '.' !in child && parent != child && record.Arr?
    requires Lookup(vars, S(parent)) == Some(Arr(items))
    requires Lookup(items, I(|items| - 1)) == Some(Arr(last))
    ensures var r := SetLoop(vars, Scal(parent + "." + child), record);
            && (forall k :: k != S(parent) ==> Lookup(r, k) == Lookup(vars, k))
            && exists items': Entries :: Lookup(r, S(parent)) == Some(Arr(items'))
                 && (forall k :: k != I(|items| - 1) ==> Lookup(items', k) == Lookup(items, k))
                 && Lookup(items', I(|items| - 1)) == Some(Arr(SetLoop(last, Scal(child), record)))
  {
    assert SetLoop(last, Scal(child), record) == LoopAt(last, [child], child, record) by {
      SplitNoSeparator(child, '.');
    }
    assert Split(parent + "." + child, '.') == [parent, child] by {
      SplitJoin([parent, child], '.');
      assert Join([parent, child], ['.']) == parent + "." + child;
    }
    var inner := SetLoop(last, Scal(child), record);
    var items' := Put(items, I(|items| - 1), Arr(inner));
    assert SetLoop(vars, Scal(parent + "." + child), record) == Put(vars, S(parent), Arr(items'));
  }

  /** `set_loop` keeps the variable tree well formed. */
  lemma {:induction false} LoopAtWellFormed(es: Entries, nests: seq<string>, last: string, rec: Value)
    requires WellFormed(Arr(es)) && WellFormed(rec)
    ensures WellFormed(Arr(LoopAt(es, nests, last, rec)))
    decreases |nests|
  {
    if |nests| > 0 {
      if nests[0] == last {
        AppendRecordWellFormed(es, nests, last, rec);
      } else {
        forall record: Entries | WellFormed(Arr(record))
          ensures WellFormed(Arr(LoopAt(record, nests[1..], last, rec)))
        {
          LoopAtWellFormed(record, nests[1..], last, rec);
        }
        DescendWellFormed(es, nests, last, rec);
      }
    }
  }

  /** One level of descent into the newest record keeps the tree well formed,
      given that the rest of the walk does. */
  lemma DescendWellFormed(es: Entries, nests: seq<string>, last: string, rec: Value)
    requires WellFormed(Arr(es)) && |nests| > 0 && nests[0] != last
    requires forall record: Entries :: WellFormed(Arr(record)) ==> WellFormed(Arr(LoopAt(record, nests[1..], last, rec)))
    ensures WellFormed(Arr(LoopAt(es, nests, last, rec)))
  {
    var n := S(nests[0]);
    match Lookup(es, n)
    case Some(Arr(items)) =>
      assert (n, Arr(items)) in es;
      var slot := I(|items| - 1);
      match Lookup(items, slot) {
        case Some(Arr(record)) =>
          assert (slot, Arr(record)) in items;
          NestWellFormed(es, n, items, slot, LoopAt(record, nests[1..], last, rec));
        case None =>
          assert WellFormed(Arr([]));
          NestWellFormed(es, n, items, slot, LoopAt([], nests[1..], last, rec));
        case Some(Scal(_)) =>
      }
    case _ =>
  }

  /** Appending a record at the last name keeps the tree well formed. */
  lemma AppendRecordWellFormed(es: Entries, nests: seq<string>, last: string, rec: Value)
    requires WellFormed(Arr(es)) && WellFormed(rec)
    requires |nests| > 0 && nests[0] == last
    ensures WellFormed(Arr(LoopAt(es, nests, last, rec)))
  {
    match Lookup(es, S(last))
    case Some(Arr(items)) =>
      assert (S(last), Arr(items)) in es;
      var items' := Append(items, rec);
      assert forall i :: 0 <= i < |items| ==> items'[i] == items[i];
      assert WellFormed(Arr(items'));
      PutWellFormed(es, S(last), Arr(items'));
    case _ =>
      assert WellFormed(Arr([(I(0), rec)]));
      PutWellFormed(es, S(last), Arr([(I(0), rec)]));
  }

  /** Storing a well-formed sub-tree in a slot of a well-formed list keeps the
      tree well formed. */
  lemma NestWellFormed(es: Entries, n: Key, items: Entries, slot: Key, sub: Entries)
    requires WellFormed(Arr(es)) && WellFormed(Arr(items)) && WellFormed(Arr(sub))
    ensures WellFormed(Arr(Put(es, n, Arr(Put(items, slot, Arr(sub))))))
  {
    PutWellFormed(items, slot, Arr(sub));
    PutWellFormed(es, n, Arr(Put(items, slot, Arr(sub))));
  }
}
